=== FILE: README.md ===
# Grid simulation of the robot rescue game

This project models the grid simulation at the heart of the game in
`game.c`. It covers:

- the 30 × 30 occupancy grid of cell tags (Air, Wall, Robot, Mine, Person);
- the four compass directions, their unit vectors, and the "turn by k
  quarter turns" arithmetic;
- the single-step movement and collision resolver `MoveEntity`;
- the per-tick driver `MoveMovingEntity` for people and mines;
- the robot's camera-relative steering from the movement keys;
- the start-up grid with its plus-shaped wall;
- the level generator `AdvanceLevel`, which wipes the grid to its walls,
  respawns the robot, resizes the mines array, reseeds the random generator
  with the level number and places people and mines by bounded retry;
- the Bresenham wall painter `PaintGridLine` and `min`.

## Modules

| file | module | contents |
|---|---|---|
| `geometry.dfy` | `Geometry` | grid size, positions, directions, the direction table, `Turn`, `Min` |
| `grid.dfy` | `Grid` | cell tags, the grid, the level-start wipe, the plus wall |
| `game.dfy` | `Game` | the game state, the occupancy invariant, the start-up state |
| `movement.dfy` | `Movement` | `MoveEntity`, both as written and corrected |
| `movement_facts.dfy` | `MovementFacts` | what a step preserves and where it breaks the invariant |
| `driver.dfy` | `Driver` | `MoveMovingEntity` and the key-driven turn |
| `placement.dfy` | `Placement` | the bounded-retry placement loop over one family of entities |
| `level.dfy` | `Level` | the random stream, the attempt search, `AdvanceLevel`, the spawn warning |
| `level_facts.dfy` | `LevelFacts` | what a generated level looks like |
| `paint.dfy` | `Paint` | `PaintGridLine` and the cells its walk visits |

## How the model is built

- **Positions.** The source keeps positions in float vectors. The positions
  the game assigns are whole numbers, and here they are integer pairs (see
  "Left out" for mine slots that were never placed). The sentinel (-1, -1)
  marks an entity out of play.
- **The occupancy invariant.** `Game.Occupancy` states that the grid mirrors
  the entities:
  - the robot's cell is the only Robot cell;
  - every person and mine in play stands on its own cell with its tag;
  - every Person or Mine cell holds one of them.

  `Game.CountersMatch` states that `peopleRemaining` equals the number of
  people in play.
- **Randomness.** `rand()` after `srand(seed)` is a function
  `rand(seed, k)` giving the k-th value of the stream. The level generator
  consumes the stream in the source's order: two draws per attempt, one for
  a facing, and one more for a mine's speed. In the driver, the turn and
  move decisions are boolean inputs, and the value that picks the turn is
  an input too.
- **The level generator.** `Level.Spawn` is the level start for any
  search strategy that only reports in-grid Air cells (`Placement.Sound`).
  `Level.AdvanceLevel` is `Spawn` with the source's search (`Level.Seek`
  from the seeded stream), which `Level.SeekWithIsSound` proves sound. So
  every `LevelFacts` lemma about `Spawn` holds for `AdvanceLevel`.
- **Counters.** `peopleRemaining` and `livesRemaining` are unbounded
  integers; no value the game reaches comes near `int` limits.

Behaviour of the code a reader might not expect:

- `AdvanceLevel` does not touch the robot's move cooldown.
- The robot's spawn cell becomes Robot even if a wall was painted there.
- A person or a mine that walks onto the robot overwrites the Robot tag.
  It is not treated as a hazard.
- A robot hazard leaves the old Robot tag in the grid. The respawn cell is
  not tagged.
- `MoveMovingEntity` skips an entity only when its x is -1.
- `TurnRobotWithAI` is empty, so there is no path-finding to model.
- The first cell of a painting stroke, one with no previous focused cell, is written directly (game.c:554) without the `<= 1` terrain test. One click can therefore overwrite a Robot, Person or Mine cell with Wall or Air, and the grid then no longer matches the entities. Only the later cells of a stroke go through `PaintGridLine`.

## Model

| member | source | states |
|---|---|---|
| Geometry.DirVector | game.c:51-56 | the direction table gives each direction a unit vector (one axis moves by exactly one) |
| Geometry.DirVectorInjective | game.c:43-56 | the table is injective: two directions share a vector exactly when they are equal |
| Geometry.FromOrd | game.c:43-48 | the enumeration numbers North..West as 0..3; converting a number below 4 back gives that number |
| Geometry.OrdInjective | game.c:43-48 | two directions have the same number exactly when they are equal |
| Geometry.TurnZeroAndFull | game.c:234-237 | `(d + 0) % 4` and `(d + 4) % 4` give d back |
| Geometry.TurnOneRotates | game.c:235 | `(d + 1) % 4` is the direction whose vector is d's vector turned a quarter clockwise, so the table order matches the geometry |
| Geometry.TurnHalf | game.c:236 | `(d + 2) % 4` is the direction whose vector is d's reversed |
| Geometry.TurnThree | game.c:237 | `(d + 3) % 4` is the direction whose vector is d's vector turned a quarter counter-clockwise |
| Geometry.TurnCompose | game.c:204 | turning by a and then by b quarter turns is turning by a + b |
| Geometry.Min | game.c:1018-1020 | the result is one of the two arguments and is not larger than either |
| Grid.TerrainIsAirOrWall | game.c:1005 | the test `grid[x][y] <= 1` holds exactly for Air and Wall |
| Grid.Set | game.c:195-197 | writing a cell changes that cell to the value and no other cell |
| Grid.Wipe | game.c:396-400 | after the wipe a cell is a wall exactly when it was one before, and every other cell is Air |
| Grid.WipeKeepsOnlyWalls | game.c:396-400 | two grids wipe to the same grid exactly when they have the same walls |
| Grid.WipeIdempotent | game.c:396-400 | wiping twice is wiping once |
| Grid.PaintPlus | game.c:383-384 | the start-up loops make a cell a wall exactly when it lies on the middle row or column, at least four cells from the edges; every other cell keeps its tag |
| Game.RespawnIsInGrid | game.c:411-412 | the spawn cell (3·30/4, 30/4) is (22, 7) and lies on the grid |
| Game.CountActiveDeactivate | game.c:177-182 | taking one entity in play to the sentinel lowers the number in play by exactly one |
| Game.CountActiveRelocate | game.c:196 | moving an entity in play to another cell keeps the number in play |
| Game.InitGame | game.c:347-392 | the start-up state is level 0, paused, five lives, five people to rescue, no mines, robot at (4, 4) with cooldown 20, and walls exactly on the plus |
| Movement.Ahead | game.c:161-162 | the destination `pos + DIR_VECTORS[dir]` is never the mover's own cell |
| Movement.FirstAt | game.c:177-182 | the scan stops at the first person standing on the destination, or runs past the end when there is none |
| Movement.DeactivateFirstAt | game.c:177-182 | only the first person found on the cell goes to the sentinel; with no one there nothing changes |
| Movement.Relocate | game.c:196 | `*pos = futurePos` moves only the mover and keeps its facing; the grid, both counters and every other entity are unchanged |
| Movement.Resolve | game.c:168-197 | a non-robot mover is stopped by a Person, Wall or Mine cell with nothing changed; a robot on a Wall or Mine cell loses one life (as counted) and goes to the spawn cell with the grid untouched; a robot on a Person cell takes that person out of play, lowers the counter and moves on; an accepted move clears the source cell, tags the destination and changes no other cell |
| Movement.MoveEntityAsWritten | game.c:160-198 | with the source's bounds test, a destination outside x, y in 1..30 leaves the state unchanged; a coordinate of exactly 30 reaches a read outside the grid; a mover standing off the grid reaches a write outside it exactly when the move is accepted, and is otherwise stopped (a robot is put back with lives assigned -1); on the grid the counters are assigned -1 |
| Movement.MoveEntity | game.c:160-198 | with the corrected bounds and counters, a destination off the grid changes nothing; otherwise the move is resolved, the mover stays on the grid, only its source and destination cells can change, lives drop by one exactly on a hazard and people by one exactly on a rescue |
| MovementFacts.MoverStandsOnItsTag | game.c:195 | under the occupancy invariant the cell a mover leaves holds the mover's tag |
| MovementFacts.StepKeepsTagged | game.c:195-197 | when one member of a family steps onto an Air cell, the family still matches its tag in the grid |
| MovementFacts.StepKeepsOtherTagged | game.c:195-197 | a step by another entity between cells without a family's tag keeps that family's correspondence |
| MovementFacts.RescueKeepsTagged | game.c:170-184 | after a rescue step the people still in play match the Person cells |
| MovementFacts.MoveEntityKeepsOccupancy | game.c:160-198 | a step keeps grid and entities in one-to-one correspondence unless the robot hits a hazard or a person or mine walks onto the robot |
| MovementFacts.RobotStepKeepsOccupancy | game.c:170-197 | the robot's step onto Air or a person keeps the correspondence |
| MovementFacts.PersonStepKeepsOccupancy | game.c:195-197 | a person's step onto Air keeps the correspondence |
| MovementFacts.MineStepKeepsOccupancy | game.c:195-197 | a mine's step onto Air keeps the correspondence |
| MovementFacts.MoveEntityKeepsCounters | game.c:170-184 | every step keeps the people counter equal to the number of people in play |
| MovementFacts.RescueKeepsCounters | game.c:174-182 | a rescue takes exactly one person out of play and lowers the counter by one |
| MovementFacts.HazardLeavesStaleRobotTag | game.c:186-192 | a hazard moves the robot to the spawn cell but leaves its old cell tagged Robot, which breaks the correspondence |
| MovementFacts.TramplingOverwritesRobot | game.c:195-197 | a person or mine walking onto the robot's cell replaces the Robot tag with its own, which breaks the correspondence |
| MovementFacts.AsWrittenReadsPastLastColumn | game.c:164-168 | a mover on the last column facing East passes the source's bounds test and reaches the read of column 30; the corrected step leaves the state unchanged |
| MovementFacts.AsWrittenRefusesColumnZero | game.c:164-165 | a mover on column 1 facing West onto Air is refused by the source's test; the corrected step moves it to column 0 |
| MovementFacts.AsWrittenRescueAssignsMinusOne | game.c:174 | the source's rescue sets the people counter to -1 from any value, so it no longer matches the people in play; the corrected step lowers it by one |
| MovementFacts.AsWrittenHazardAssignsMinusOne | game.c:188 | the source's hazard sets the lives counter to -1 from any value; the corrected step lowers it by one |
| Driver.Face | game.c:204 | the mover's facing becomes the given direction; its position, every other entity, the grid, the level and both counters are unchanged |
| Driver.Steer | game.c:203-205 | a turn draw sets the facing to the old one turned by `rand() % 2` quarter turns clockwise; only the mover's facing changes; without the draw the state is unchanged |
| Driver.MoveMovingEntity | game.c:200-209 | an entity whose x is -1 is skipped; a turn draw leaves it facing its old direction turned by `rand() % 2` quarter turns; without a move draw only its facing changes; it takes at most one non-robot step, and the robot and both counters are untouched |
| Driver.MoveMovingEntityAsWritten | game.c:200-209 | the tick on every well-formed slot, placed or not, with the source's bounds test: a skipped entity is unchanged, a non-moving one is the steered state, a moving one takes `Movement.MoveEntityAsWritten` from the steered state; it fails exactly when the step passes the bounds test and then leaves the grid or writes an off-grid old cell; an off-grid slot otherwise only turns; the robot and the counters are untouched |
| Driver.DriverAgreesAwayFromEdges | game.c:200-209 | when the step, if taken, aims at a cell with x and y in 1..29, the source's tick and the corrected one give the same state |
| Driver.MoveMovingEntityKeepsInvariants | game.c:200-209 | a driver tick keeps the grid correspondence and the people counter unless the entity walks onto the robot |
| Driver.SteerKeepsInvariants | game.c:203-205 | turning keeps the grid correspondence and the people counter |
| Driver.CountActiveSamePositions | game.c:203-205 | the number of entities in play depends only on their positions |
| Driver.UserTurn | game.c:230-238 | left gives the direction a quarter turn counter-clockwise of the camera's forward direction, else back its reverse, else right a quarter turn clockwise, else forward the forward direction itself; with no key the facing is kept |
| Placement.PlaceFrom | game.c:433-467 | the placement loop keeps the slot count, and the slots before the start keep their entity and outcome |
| Placement.PlaceFromFrame | game.c:440-462 | placement changes only cells that were Air, each to the family's tag and each one some slot found |
| Placement.PlaceFromKeeps | game.c:446-466 | a slot whose search gave up holds what it held before |
| Placement.PlaceFromPlaces | game.c:441-462 | a slot whose search succeeded stands on the found cell, which was Air before and now holds the family's tag |
| Placement.PlacesAfterFound | game.c:441-462 | the same, for a run whose first search succeeds |
| Placement.PlaceFromDistinct | game.c:440-462 | no two slots are placed on the same cell |
| Placement.DistinctAfterFound | game.c:440-462 | the same, for a run whose first search succeeds |
| Placement.PlaceFromCount | game.c:429-444 | with every slot out of play at the start, the count of placed slots is the number of slots in play afterwards |
| Placement.CountAfterFound | game.c:441-445 | the same, for a run whose first search succeeds |
| Placement.CountAfterExhausted | game.c:435-446 | the same, for a run whose first search gives up |
| Placement.PlaceTagged | game.c:433-467 | placing a family that starts out of play on a grid with no cells of its tag makes grid and family correspond one to one |
| Placement.SpawnedTagged | game.c:433-467 | any placement result that changes only found Air cells, keeps failed slots and places found slots on distinct cells gives a one-to-one correspondence |
| Level.AttemptCell | game.c:437-438 | every drawn cell `(rand() % 30, rand() % 30)` lies on the grid |
| Level.Seek | game.c:434-446 | one slot's search finds a cell within ten attempts; the cell is the one its last attempt drew, it is an in-grid Air cell, and the stream continues right after that attempt's two draws |
| Level.SeekFindsFirst | game.c:435-446 | the search finds the first Air cell drawn, since every earlier attempt drew a non-Air cell; it gives up exactly when all ten attempts drew non-Air cells |
| Level.BlockedStep | game.c:440 | a first attempt that drew a non-Air cell can be dropped from a run of failed attempts |
| Level.SeekWithIsSound | game.c:433-467 | the source's search only ever reports in-grid Air cells within the attempt bound |
| Level.ClearedMines | game.c:405-417 | after the sentinel loop and the resize, the old slots that remain are on the sentinel with their facing, and the new slots hold an arbitrary well-formed entity standing for fresh memory |
| Level.ClearedPeople | game.c:402-404 | every person goes to the sentinel and keeps its facing |
| Level.StartGrid | game.c:396-412 | before placement the spawn cell is Robot, and every other cell is Air or Wall with the walls of before |
| Level.MineSlots | game.c:413-414 | the number of mine slots is five per level up to fifty |
| Level.Spawn | game.c:394-470 | the new level is the next one and is paused; the robot is back on the spawn cell with its facing and cooldown; lives are unchanged; there are 5 × level mine slots, capped at fifty |
| Level.AdvanceLevel | game.c:394-470 | the same, for the search seeded with the new level number |
| Level.Flags | game.c:466 | one warning flag per mine slot, set exactly when the warning rule holds for that slot's outcome |
| Level.MineWarningsAsWritten | game.c:466 | there is one flag per mine slot, from the source's test `attempt >= max_attempts` |
| Level.MineWarnings | game.c:466 | there is one flag per mine slot, from the corrected test "the search gave up" |
| LevelFacts.SpawnKeepsWalls | game.c:396-412 | a cell other than the spawn cell is a wall after the level start exactly when it was one before, and the spawn cell holds Robot |
| LevelFacts.ChangesKeepWalls | game.c:440-462 | placement of people or mines neither creates nor removes a Wall or Robot cell |
| LevelFacts.SpawnCountsPeople | game.c:429-444 | `peopleRemaining` is the number of people placed, which is the number in play and at most five |
| LevelFacts.SpawnPlacesPeople | game.c:440-443 | every person in play stands on its own Person cell; its search succeeded, and before the level that cell was neither a wall nor the spawn cell |
| LevelFacts.SpawnPlacesMines | game.c:455-462 | every mine slot whose search succeeded stands on its own Mine cell, which was neither a wall nor the spawn cell before; a slot whose search gave up keeps what the resize left in it |
| LevelFacts.OtherChangesKeepTagged | game.c:440-462 | placing mines on Air cells keeps the people's correspondence |
| LevelFacts.SpawnEstablishesOccupancy | game.c:394-470 | when fresh mine memory holds no entity in play, the generated level has grid and entities in one-to-one correspondence |
| LevelFacts.SpawnDependsOnlyOnWalls | game.c:396-426 | two states at the same level with the same walls, facings, cooldown, lives and mine count generate the same level |
| LevelFacts.FirstLevel | game.c:383-414 | from the start-up state the first level is level 1 with five mine slots and the plus as its walls |
| LevelFacts.LastAttemptSucceeds | game.c:450-466 | a search whose first nine attempts fail and whose tenth draws Air places the mine with ten attempts used; the source's test warns, and the corrected test does not |
| LevelFacts.LastAttemptExample | game.c:450-466 | a concrete grid and stream on which the tenth attempt finds (0, 0) and the source still warns |
| LevelFacts.MineWarningsMarkUnplaced | game.c:448-467 | the corrected warning fires exactly for the slots whose search gave up, which (with fresh memory out of play) are exactly the mines not in play |
| LevelFacts.AsWrittenWarnsForPlacedMine | game.c:466 | a mine placed on its tenth attempt stands on a Mine cell, yet the source warns for it while the corrected test does not |
| LevelFacts.WarningsAgreeExceptLastAttempt | game.c:466 | the source warns wherever the corrected test does, and where only the source warns the mine was placed on its tenth attempt |
| Paint.StepAdvances | game.c:1007-1015 | away from the far end one loop pass keeps the invariant, takes at most one step along each axis and at least one along some axis, and brings the cursor nearer the end |
| Paint.NoOvershootX | game.c:1013 | with all x steps taken and y steps left, the x test fails, so x never passes x1 |
| Paint.NoOvershootY | game.c:1014 | with all y steps taken and x steps left, the y test fails, so y never passes y1 |
| Paint.ErrorTermStep | game.c:1013-1014 | the error term after a pass records the steps taken: it falls by dy per x step and rises by dx per y step |
| Paint.TraceFrom | game.c:1003-1015 | the walk from a cursor starts on the cursor's cell |
| Paint.TraceFromAhead | game.c:1003-1015 | every later cell of the walk lies strictly further along, and all cells lie between the cursor and the far end |
| Paint.TraceFromDistinct | game.c:1003-1015 | the walk visits no cell twice |
| Paint.TraceFromEnds | game.c:1010 | the walk ends on (x1, y1) |
| Paint.TraceFromConnected | game.c:1012-1014 | each cell of the walk touches the next, by a side or a corner |
| Paint.StepTouches | game.c:1012-1014 | one pass moves to a different, touching cell |
| Paint.ConnectedCons | game.c:1012-1014 | putting a cell that touches a connected walk's first cell in front keeps the walk connected |
| Paint.TraceShape | game.c:996-1016 | the walk starts on (x0, y0), ends on (x1, y1), visits no cell twice and moves to a touching cell at every pass |
| Paint.TraceInBox | game.c:996-1016 | every visited cell lies in the box spanned by the endpoints, so a walk between two grid cells stays on the grid |
| Paint.PaintAlongEffect | game.c:1004-1007 | painting a walk without repeats writes the value into exactly its cells that held Air or Wall, and leaves every other cell as it was |
| Paint.PaintGridLine | game.c:996-1016 | the loop terminates and paints the walk: a cell changes exactly when the walk visits it and it held Air or Wall, and then it takes the value; Robot, Mine and Person cells and all cells off the walk keep their tag |

## Left out

- Rendering, the HUD, the camera and ray-plane picking: these are graphics calls and float geometry. The picking supplies cells on the grid: the endpoints of `PaintGridLine`, and the first cell of a stroke, which the editor writes directly (game.c:548-555). That direct write is a single unconditional cell assignment; it is described above and not modelled separately.
- The main loop, the menu, game-over and gameplay screens, score and the state machine. These are input-driven I/O, and they include the key-dependent cooldown gate that decides when the robot moves.
- `TurnRobotWithAI`: its body is empty, so there is nothing to model.
- The float move and turn likelihoods and the `rand() < p * RAND_MAX` tests. The driver takes the two decisions as boolean inputs. The mine-speed draw is still consumed from the stream.
- The allocation-failure exits and their messages. The resized mines array is a sequence of the new length, and grown slots hold an arbitrary well-formed `junk` value.
- The printed spawn warning: the model gives one flag per mine slot instead of printing.
- Level.AdvanceLevel: its level-shape properties (walls kept, people counted, placement, one-to-one correspondence, determinism) are proved for `Level.Spawn` over every sound search. `Level.SeekWithIsSound` shows the seeded search is one of them. The instantiated statements are not written out separately.
- Level.Spawn and Level.AdvanceLevel: they require `currentLevel >= 0`, because the level only counts up from 0 in the game. In the source, a negative level would give `min` a negative mine count for `realloc`.
- Level.ClearedMines: the slots that `realloc` adds (game.c:417) are uninitialised memory. The model limits them to whole-number positions and one of the four facings. The source's memory can hold a fractional float position or a facing outside 0..3, and the model represents neither.
- Driver.MoveMovingEntityAsWritten: it covers every slot the driver steps, placed or not, but only with a well-formed entity. A never-placed slot whose uninitialised facing lies outside 0..3 reads past the four-entry `DIR_VECTORS` table at game.c:161, and a fractional position is truncated by the `(int)` casts. The model represents neither, so its `None` case is exact only for well-formed slots.
- Driver.MoveMovingEntity: it requires an entity in play to be on the grid, which excludes mine slots that hold uninitialised memory after an exhausted spawn search. For such a slot the source's step either stops at the bounds test or reads and writes outside the grid.
- Driver.MoveMovingEntity: it steps with the corrected `Movement.MoveEntity`. The source's call at game.c:207 uses the bounds test modelled by `Driver.MoveMovingEntityAsWritten`, and `Driver.DriverAgreesAwayFromEdges` shows the two agree unless the step aims at row or column 0 or 30.
- Driver.UserTurn: the camera's forward direction is an input, because computing it from the camera is float geometry.
- Paint.PaintGridLine: the painted value is one of the five cell tags. The source accepts any `int`, but its only caller passes Wall or Air.
- Paint.PaintGridLine: the source reads the cell before its bounds test. The model tests the bounds first. The two differ only when an endpoint is off the grid, and `Paint.TraceInBox` shows the editor's calls, between grid cells, never leave the grid.

## Findings

| source | as written | input that shows it | evidently intended | confidence | as-written member | corrected member |
|---|---|---|---|---|---|---|
| game.c:164-165 | the bounds test rejects x or y ≤ 0 and > 30, so it refuses column and row 0 and admits 30, and line 168 then reads outside the grid | a mover at (29, y) with y ≥ 1 facing East reaches the read of `grid[30][y]`; a mover at (1, y) facing West cannot reach an Air cell at (0, y) | reject a destination outside 0..29 on either axis | high (not executed) | MovementFacts.AsWrittenReadsPastLastColumn, MovementFacts.AsWrittenRefusesColumnZero | Movement.MoveEntity |
| game.c:174-188 | `peopleRemaining =+ -1` and `livesRemaining =+ -1` assign -1 | any rescue, or any hazard, from any counter value | decrement by one (`-= 1`) | high (not executed) | MovementFacts.AsWrittenRescueAssignsMinusOne, MovementFacts.AsWrittenHazardAssignsMinusOne | Movement.MoveEntity, MovementFacts.MoveEntityKeepsCounters |
| game.c:466 | the spawn warning fires when `attempt >= max_attempts`, which also holds when the tenth attempt placed the mine | a grid walled everywhere but (0, 0), and a stream whose first nine cells are (1, 1) and whose tenth is (0, 0) | warn only when no cell was found | medium (not executed) | LevelFacts.AsWrittenWarnsForPlacedMine, LevelFacts.LastAttemptExample | Level.MineWarnings, LevelFacts.MineWarningsMarkUnplaced |

=== FILE: driver.dfy ===
/** Per-tick steering: the stochastic driver for people and mines, and the
    camera-relative direction chosen from the movement keys for the robot.
    Random draws and key states are explicit inputs. */
module Driver {
  import opened Geometry
  import opened Grid
  import opened Game
  import opened Movement
  import opened MovementFacts

  /** Nothing but the mover's facing differs between s and r: the grid,
      the counters, the level, every position and every other entity's
      facing are as they were. */
  predicate OnlyFacingChanges(s: GameState, r: GameState, m: Mover) {
    && r.grid == s.grid
    && r.currentLevel == s.currentLevel && r.paused == s.paused
    && r.peopleRemaining == s.peopleRemaining && r.livesRemaining == s.livesRemaining
    && r.robot.pos == s.robot.pos && r.robot.moveCooldown == s.robot.moveCooldown
    && (m != RobotMover ==> r.robot == s.robot)
    && |r.people| == |s.people| && |r.mines| == |s.mines|
    && (forall i :: 0 <= i < |s.people| ==> r.people[i].pos == s.people[i].pos)
    && (forall i :: 0 <= i < |s.people| && m != PersonMover(i) ==> r.people[i] == s.people[i])
    && (forall i :: 0 <= i < |s.mines| ==> r.mines[i].pos == s.mines[i].pos)
    && (forall i :: 0 <= i < |s.mines| && m != MineMover(i) ==> r.mines[i] == s.mines[i])
  }

  /** Sets the mover's facing. */
  function Face(s: GameState, m: Mover, d: Direction): (r: GameState)
    requires Movable(s, m)
    ensures Movable(r, m) && DirOf(r, m) == d && PosOf(r, m) == PosOf(s, m)
    ensures OnlyFacingChanges(s, r, m)
  {
    match m
    case RobotMover => s.(robot := s.robot.(dir := d))
    case PersonMover(i) => s.(people := s.people[i := s.people[i].(dir := d)])
    case MineMover(i) => s.(mines := s.mines[i := s.mines[i].(dir := d)])
  }

  /** The turn decision: when the turn draw succeeds, the facing becomes
      `(dir + rand() % 2) % 4`, where turnDraw is that second rand(). */
  function Steer(s: GameState, m: Mover, turns: bool, turnDraw: nat): (r: GameState)
    requires Movable(s, m)
    ensures Movable(r, m) && PosOf(r, m) == PosOf(s, m)
    ensures DirOf(r, m) == DirOf(s, m) || DirOf(r, m) == Turn(DirOf(s, m), 1)
    ensures turns ==> DirOf(r, m) == Turn(DirOf(s, m), turnDraw % 2)
    ensures !turns ==> r == s
    ensures OnlyFacingChanges(s, r, m)
    ensures r.grid == s.grid && r.robot.pos == s.robot.pos
    ensures |r.people| == |s.people| && |r.mines| == |s.mines|
    ensures forall i :: 0 <= i < |s.people| ==> r.people[i].pos == s.people[i].pos
    ensures forall i :: 0 <= i < |s.mines| ==> r.mines[i].pos == s.mines[i].pos
  {
    TurnZeroAndFull(DirOf(s, m));
    if turns then Face(s, m, Turn(DirOf(s, m), turnDraw % 2)) else s
  }

  /** MoveMovingEntity: an entity on the sentinel column is skipped; any
      other one may turn by a quarter turn clockwise and then takes at most
      one non-robot MoveEntity step. Neither counter nor the robot changes. */
  function MoveMovingEntity(s: GameState, m: Mover, turns: bool, turnDraw: nat, moves: bool): (r: GameState)
    requires !IsRobot(m) && Movable(s, m)
    requires PosOf(s, m).x == -1 || InGrid(PosOf(s, m))
    ensures PosOf(s, m).x == -1 ==> r == s
    ensures PosOf(s, m).x != -1 ==>
      Movable(r, m) && (DirOf(r, m) == DirOf(s, m) || DirOf(r, m) == Turn(DirOf(s, m), 1))
    ensures PosOf(s, m).x != -1 && !turns ==> Movable(r, m) && DirOf(r, m) == DirOf(s, m)
    ensures PosOf(s, m).x != -1 && !moves ==> Movable(r, m) && PosOf(r, m) == PosOf(s, m) && OnlyFacingChanges(s, r, m)
    ensures PosOf(s, m).x != -1 && turns ==> Movable(r, m) && DirOf(r, m) == Turn(DirOf(s, m), turnDraw % 2)
    ensures PosOf(s, m).x != -1 && moves ==> r == MoveEntity(Steer(s, m, turns, turnDraw), m)
    ensures r.robot == s.robot
    ensures r.peopleRemaining == s.peopleRemaining && r.livesRemaining == s.livesRemaining
  {
    if PosOf(s, m).x == -1 then s
    else
      var s1 := Steer(s, m, turns, turnDraw);
      if moves then MoveEntity(s1, m) else s1
  }

  /** MoveMovingEntity as the source has it: the step is MoveEntity with the
      source's bounds test, and None stands for its access outside the grid.
      Every slot is driven, including a mine slot that was never placed and
      holds an arbitrary well-formed entity: a whole-number position
      and one of the four facings. */
  function MoveMovingEntityAsWritten(s: GameState, m: Mover, turns: bool, turnDraw: nat, moves: bool): (r: Option<GameState>)
    requires !IsRobot(m) && Movable(s, m)
    ensures PosOf(s, m).x == -1 ==> r == Some(s)
    ensures PosOf(s, m).x != -1 && !moves ==> r == Some(Steer(s, m, turns, turnDraw))
    ensures PosOf(s, m).x != -1 && moves ==> r == MoveEntityAsWritten(Steer(s, m, turns, turnDraw), m)
    ensures r.None? <==>
      (PosOf(s, m).x != -1 && moves && PassesSourceCheck(Ahead(Steer(s, m, turns, turnDraw), m)) &&
       (!InGrid(Ahead(Steer(s, m, turns, turnDraw), m)) ||
        (!InGrid(PosOf(s, m)) && Accepts(Steer(s, m, turns, turnDraw), m))))
    ensures PosOf(s, m).x != -1 && !InGrid(PosOf(s, m)) ==> r.None? || r == Some(Steer(s, m, turns, turnDraw))
    ensures r.Some? ==>
      (r.value.robot == s.robot && r.value.peopleRemaining == s.peopleRemaining &&
       r.value.livesRemaining == s.livesRemaining)
  {
    if PosOf(s, m).x == -1 then Some(s)
    else
      var s1 := Steer(s, m, turns, turnDraw);
      if moves then MoveEntityAsWritten(s1, m) else Some(s1)
  }

  /** The source's driver and the corrected one agree on every tick whose
      step, if taken, aims at a cell with both coordinates in 1 .. 29; they
      differ only at column or row 0 and 30. A person or a mine never
      rescues and never meets a hazard, so how the source lowers the counters
      makes no difference to its step. */
  lemma DriverAgreesAwayFromEdges(s: GameState, m: Mover, turns: bool, turnDraw: nat, moves: bool)
    requires !IsRobot(m) && Movable(s, m)
    requires PosOf(s, m).x == -1 || InGrid(PosOf(s, m))
    requires PosOf(s, m).x != -1 && moves ==>
      var p := Ahead(Steer(s, m, turns, turnDraw), m); 1 <= p.x < Width && 1 <= p.y < Height
    ensures MoveMovingEntityAsWritten(s, m, turns, turnDraw, moves) == Some(MoveMovingEntity(s, m, turns, turnDraw, moves))
  {
  }

  /** A driver tick keeps grid and entities in correspondence, and the people
      counter in step, unless the entity walks onto the robot. */
  lemma MoveMovingEntityKeepsInvariants(s: GameState, m: Mover, turns: bool, turnDraw: nat, moves: bool)
    requires !IsRobot(m) && Movable(s, m) && Occupancy(s) && CountersMatch(s)
    requires PosOf(s, m).x == -1 || InGrid(PosOf(s, m))
    requires PosOf(s, m).x != -1 && moves ==> !Tramples(Steer(s, m, turns, turnDraw), m)
    ensures Occupancy(MoveMovingEntity(s, m, turns, turnDraw, moves))
    ensures CountersMatch(MoveMovingEntity(s, m, turns, turnDraw, moves))
  {
    if PosOf(s, m).x != -1 {
      var s1 := Steer(s, m, turns, turnDraw);
      SteerKeepsInvariants(s, m, turns, turnDraw);
      if moves {
        MoveEntityKeepsOccupancy(s1, m);
        MoveEntityKeepsCounters(s1, m);
      }
    }
  }

  /** Turning moves nobody, so it keeps both invariants. */
  lemma SteerKeepsInvariants(s: GameState, m: Mover, turns: bool, turnDraw: nat)
    requires Movable(s, m) && Occupancy(s) && CountersMatch(s)
    ensures Occupancy(Steer(s, m, turns, turnDraw)) && CountersMatch(Steer(s, m, turns, turnDraw))
  {
    var s1 := Steer(s, m, turns, turnDraw);
    assert Tagged(s1.grid, s1.people, Person) by {
      forall q | InGrid(q) && At(s1.grid, q) == Person
        ensures exists i :: 0 <= i < |s1.people| && s1.people[i].pos == q
      {
        var i :| 0 <= i < |s.people| && s.people[i].pos == q;
        assert s1.people[i].pos == q;
      }
    }
    assert Tagged(s1.grid, s1.mines, Mine) by {
      forall q | InGrid(q) && At(s1.grid, q) == Mine
        ensures exists i :: 0 <= i < |s1.mines| && s1.mines[i].pos == q
      {
        var i :| 0 <= i < |s.mines| && s.mines[i].pos == q;
        assert s1.mines[i].pos == q;
      }
    }
    CountActiveSamePositions(s.people, s1.people);
  }

  /** The count of entities in play depends only on their positions. */
  lemma {:induction false} CountActiveSamePositions(es: seq<MovingEntity>, fs: seq<MovingEntity>)
    requires |es| == |fs| && forall i :: 0 <= i < |es| ==> es[i].pos == fs[i].pos
    ensures CountActive(es) == CountActive(fs)
  {
    if |es| > 0 {
      CountActiveSamePositions(es[1..], fs[1..]);
    }
  }

  /** TurnRobotWithUserInputs: each movement key picks a facing relative to
      the camera's forward direction base, `(base + k) % 4`; the keys are
      checked in the order forward, right, back, left, so the last one held wins. With no
      key held the facing is kept. Stated through the direction table:
      forward is base's vector, right its clockwise rotation, back its
      reverse, left the reverse of right. */
  function UserTurn(current: Direction, base: Direction, up: bool, right: bool, down: bool, left: bool): (r: Direction)
    ensures left ==> DirVector(r) == Negate(RotateClockwise(DirVector(base)))
    ensures !left && down ==> DirVector(r) == Negate(DirVector(base))
    ensures !left && !down && right ==> DirVector(r) == RotateClockwise(DirVector(base))
    ensures !left && !down && !right && up ==> r == base
    ensures !left && !down && !right && !up ==> r == current
  {
    TurnZeroAndFull(base);
    TurnOneRotates(base);
    TurnHalf(base);
    TurnThree(base);
    var d0 := current;
    var d1 := if up then Turn(base, 0) else d0;
    var d2 := if right then Turn(base, 1) else d1;
    var d3 := if down then Turn(base, 2) else d2;
    if left then Turn(base, 3) else d3
  }
}

=== FILE: game.dfy ===
/** The simulation state (the part of the game context the core reads and
    writes), the occupancy invariant tying entity positions to grid tags,
    and the start-up state. */
module Game {
  import opened Geometry
  import opened Grid

  const NumPeople: nat := 5
  const MaxLives: int := 5

  /** Where the robot starts each level and is put back after a hazardous
      collision: (3 * GRID_HEIGHT / 4, GRID_WIDTH / 4). */
  const Respawn: Pos := Pos(3 * Height / 4, Width / 4)

  lemma RespawnIsInGrid()
    ensures Respawn == Pos(22, 7) && InGrid(Respawn)
  {
  }

  /** A person or a mine. The per-tick move and turn likelihoods are floats
      in the source and are not part of this model. */
  datatype MovingEntity = MovingEntity(pos: Pos, dir: Direction)

  datatype RobotState = RobotState(pos: Pos, dir: Direction, moveCooldown: int)

  /** mineCount is |mines|: the mines array always holds exactly mineCount
      slots once a level has been generated. */
  datatype GameState = GameState(
    grid: Grid,
    currentLevel: int,
    paused: bool,
    robot: RobotState,
    people: seq<MovingEntity>,
    mines: seq<MovingEntity>,
    peopleRemaining: int,
    livesRemaining: int)

  /** The people array has NUM_PEOPLE slots. */
  predicate Valid(s: GameState) {
    |s.people| == NumPeople
  }

  /** An entity takes part in play unless it sits on the sentinel. */
  predicate Active(e: MovingEntity) {
    e.pos != Sentinel
  }

  function CountActive(es: seq<MovingEntity>): (n: nat)
    ensures n <= |es|
  {
    if |es| == 0 then 0 else (if Active(es[0]) then 1 else 0) + CountActive(es[1..])
  }

  /** Taking one active entity out of play lowers the count by exactly one. */
  lemma {:induction false} CountActiveDeactivate(es: seq<MovingEntity>, k: nat, e: MovingEntity)
    requires k < |es| && Active(es[k]) && !Active(e)
    ensures CountActive(es[k := e]) == CountActive(es) - 1
  {
    if k > 0 {
      CountActiveDeactivate(es[1..], k - 1, e);
      assert es[k := e][1..] == es[1..][k - 1 := e];
    }
  }

  /** Changing where an active entity stands, keeping it active, keeps the count. */
  lemma {:induction false} CountActiveRelocate(es: seq<MovingEntity>, k: nat, e: MovingEntity)
    requires k < |es| && Active(es[k]) && Active(e)
    ensures CountActive(es[k := e]) == CountActive(es)
  {
    if k > 0 {
      CountActiveRelocate(es[1..], k - 1, e);
      assert es[k := e][1..] == es[1..][k - 1 := e];
    }
  }

  /** Grid g and the entities es agree on tag t: every active entity stands
      on a cell tagged t, no two active entities share a cell, and every
      cell tagged t holds one of them. */
  ghost predicate Tagged(g: Grid, es: seq<MovingEntity>, t: Cell) {
    && (forall i :: 0 <= i < |es| && Active(es[i]) ==> InGrid(es[i].pos) && At(g, es[i].pos) == t)
    && (forall i, j :: 0 <= i < |es| && 0 <= j < |es| && i != j && Active(es[i]) ==> es[i].pos != es[j].pos)
    && (forall q :: InGrid(q) && At(g, q) == t ==> exists i :: 0 <= i < |es| && es[i].pos == q)
  }

  /** Grid and entities mirror each other: the robot's cell is the one Robot
      cell, and people and mines are in one-to-one correspondence with the
      Person and Mine cells. */
  ghost predicate Occupancy(s: GameState) {
    && InGrid(s.robot.pos)
    && At(s.grid, s.robot.pos) == Robot
    && (forall q :: InGrid(q) && At(s.grid, q) == Robot ==> q == s.robot.pos)
    && Tagged(s.grid, s.people, Person)
    && Tagged(s.grid, s.mines, Mine)
  }

  /** The counter of people still to rescue matches the people in play. */
  ghost predicate CountersMatch(s: GameState) {
    s.peopleRemaining == CountActive(s.people)
  }

  /** The start-up state. The context is zero-initialised by its owner, so
      every field the start-up code leaves alone is zero: people stand at
      (0, 0) facing North, the robot faces North. */
  method InitGame() returns (s: GameState)
    ensures Valid(s) && s.currentLevel == 0 && s.paused
    ensures s.robot == RobotState(Pos(4, 4), North, 20)
    ensures s.livesRemaining == MaxLives && s.peopleRemaining == NumPeople
    ensures |s.mines| == 0
    ensures forall q :: InGrid(q) ==> (At(s.grid, q) == Wall <==> OnPlus(q))
    ensures forall q :: InGrid(q) ==> IsTerrain(At(s.grid, q))
  {
    var g := PaintPlus(Blank());
    s := GameState(
      grid := g,
      currentLevel := 0,
      paused := true,
      robot := RobotState(Pos(4, 4), North, 20),
      people := seq(NumPeople, _ => MovingEntity(Pos(0, 0), North)),
      mines := [],
      peopleRemaining := NumPeople,
      livesRemaining := MaxLives);
  }
}

=== FILE: geometry.dfy ===
/** Grid dimensions, integer positions, and the four compass directions with
    their unit vectors and the modular "turn by k quarter turns" arithmetic. */
module Geometry {

  /** GRID_WIDTH and GRID_HEIGHT. */
  const Width: int := 30
  const Height: int := 30

  /** A grid coordinate. The source keeps positions in float vectors whose
      components are always whole numbers; here they are integers. */
  datatype Pos = Pos(x: int, y: int)

  /** A displacement between two positions. */
  datatype Vec = Vec(dx: int, dy: int)

  /** The off-grid position that marks an entity as removed from play. */
  const Sentinel: Pos := Pos(-1, -1)

  predicate InGrid(p: Pos) {
    0 <= p.x < Width && 0 <= p.y < Height
  }

  function Translate(p: Pos, v: Vec): Pos {
    Pos(p.x + v.dx, p.y + v.dy)
  }

  function Abs(n: int): nat {
    if n < 0 then -n else n
  }

  /** The smaller of two integers. */
  function Min(a: int, b: int): (r: int)
    ensures r <= a && r <= b
    ensures r == a || r == b
  {
    if a < b then a else b
  }

  /** The Direction enumeration; its declaration order fixes the numbering
      North = 0, East = 1, South = 2, West = 3. */
  datatype Direction = North | East | South | West

  function Ord(d: Direction): (n: nat)
    ensures n < 4
  {
    match d
    case North => 0
    case East => 1
    case South => 2
    case West => 3
  }

  function FromOrd(n: nat): (d: Direction)
    requires n < 4
    ensures Ord(d) == n
  {
    if n == 0 then North else if n == 1 then East else if n == 2 then South else West
  }

  lemma OrdInjective(d: Direction, e: Direction)
    ensures Ord(d) == Ord(e) <==> d == e
  {
  }

  /** The direction table: screen coordinates, y grows southwards. */
  function DirVector(d: Direction): (v: Vec)
    ensures Abs(v.dx) + Abs(v.dy) == 1
  {
    match d
    case North => Vec(0, -1)
    case East => Vec(1, 0)
    case South => Vec(0, 1)
    case West => Vec(-1, 0)
  }

  /** Quarter-turn rotation of a vector, clockwise on screen (y down). */
  function RotateClockwise(v: Vec): Vec {
    Vec(-v.dy, v.dx)
  }

  function Negate(v: Vec): Vec {
    Vec(-v.dx, -v.dy)
  }

  /** The direction k quarter turns clockwise from d: `(d + k) % 4`. */
  function Turn(d: Direction, k: nat): Direction {
    FromOrd((Ord(d) + k) % 4)
  }

  /** Every direction has its own vector. */
  lemma DirVectorInjective(d: Direction, e: Direction)
    ensures DirVector(d) == DirVector(e) <==> d == e
  {
  }

  /** No turn, or four quarter turns, keep the direction. */
  lemma TurnZeroAndFull(d: Direction)
    ensures Turn(d, 0) == d && Turn(d, 4) == d
  {
    match d
    case North =>
    case East =>
    case South =>
    case West =>
  }

  /** One quarter turn of the enumeration rotates the table entry by a
      quarter turn clockwise: the table order matches the geometry. */
  lemma TurnOneRotates(d: Direction)
    ensures DirVector(Turn(d, 1)) == RotateClockwise(DirVector(d))
  {
    match d
    case North => assert Turn(d, 1) == East;
    case East => assert Turn(d, 1) == South;
    case South => assert Turn(d, 1) == West;
    case West => assert Turn(d, 1) == North;
  }

  /** Two quarter turns reverse the direction. */
  lemma TurnHalf(d: Direction)
    ensures DirVector(Turn(d, 2)) == Negate(DirVector(d))
  {
    match d
    case North => assert Turn(d, 2) == South;
    case East => assert Turn(d, 2) == West;
    case South => assert Turn(d, 2) == North;
    case West => assert Turn(d, 2) == East;
  }

  /** Three quarter turns clockwise are one quarter turn counter-clockwise. */
  lemma TurnThree(d: Direction)
    ensures DirVector(Turn(d, 3)) == Negate(RotateClockwise(DirVector(d)))
  {
    match d
    case North => assert Turn(d, 3) == West;
    case East => assert Turn(d, 3) == North;
    case South => assert Turn(d, 3) == East;
    case West => assert Turn(d, 3) == South;
  }

  /** Turning is additive modulo four. */
  lemma TurnCompose(d: Direction, a: nat, b: nat)
    ensures Turn(Turn(d, a), b) == Turn(d, a + b)
  {
    var n := Ord(d);
    assert ((n + a) % 4 + b) % 4 == (n + a + b) % 4;
    OrdInjective(Turn(Turn(d, a), b), Turn(d, a + b));
  }
}

=== FILE: grid.dfy ===
/** The occupancy grid: a 30 by 30 array of cell tags indexed grid[x][y],
    the level-start wipe and the plus-shaped wall painted at start-up. */
module Grid {
  import opened Geometry

  /** CellType, in declaration order Air = 0 .. Person = 4. */
  datatype Cell = Air | Wall | Robot | Mine | Person

  /** The integer the source stores for a tag. */
  function Value(c: Cell): nat {
    match c
    case Air => 0
    case Wall => 1
    case Robot => 2
    case Mine => 3
    case Person => 4
  }

  /** The source's test `grid[x][y] <= 1`: the cell holds terrain, no entity. */
  predicate IsTerrain(c: Cell) {
    Value(c) <= 1
  }

  lemma TerrainIsAirOrWall(c: Cell)
    ensures IsTerrain(c) <==> c == Air || c == Wall
  {
  }

  /** `int grid[GRID_WIDTH][GRID_HEIGHT]`. */
  type Grid = g: seq<seq<Cell>> | |g| == Width && forall x :: 0 <= x < |g| ==> |g[x]| == Height
    witness seq(Width, _ => seq(Height, _ => Air))

  /** The zero-initialised grid: every cell Air. */
  function Blank(): (g: Grid)
    ensures forall q :: InGrid(q) ==> At(g, q) == Air
  {
    seq(Width, _ => seq(Height, _ => Air))
  }

  function At(g: Grid, p: Pos): Cell
    requires InGrid(p)
  {
    g[p.x][p.y]
  }

  /** `grid[p.x][p.y] = c`: that cell, and no other, now holds c. */
  function Set(g: Grid, p: Pos, c: Cell): (r: Grid)
    requires InGrid(p)
    ensures At(r, p) == c
    ensures forall q :: InGrid(q) && q != p ==> At(r, q) == At(g, q)
  {
    g[p.x := g[p.x][p.y := c]]
  }

  /** Two grids that agree cell by cell are the same grid. */
  lemma Extensionality(g: Grid, h: Grid)
    requires forall q :: InGrid(q) ==> At(g, q) == At(h, q)
    ensures g == h
  {
    forall x | 0 <= x < Width
      ensures g[x] == h[x]
    {
      forall y | 0 <= y < Height
        ensures g[x][y] == h[x][y]
      {
        assert At(g, Pos(x, y)) == At(h, Pos(x, y));
      }
    }
  }

  ghost predicate SameWalls(g: Grid, h: Grid) {
    forall q :: InGrid(q) ==> (At(g, q) == Wall <==> At(h, q) == Wall)
  }

  /** The level-start wipe: every cell that is not Wall becomes Air. */
  function Wipe(g: Grid): (r: Grid)
    ensures forall q :: InGrid(q) ==> (At(r, q) == Wall <==> At(g, q) == Wall)
    ensures forall q :: InGrid(q) ==> IsTerrain(At(r, q))
  {
    seq(Width, x requires 0 <= x < Width =>
      seq(Height, y requires 0 <= y < Height => if g[x][y] == Wall then Wall else Air))
  }

  /** The wipe forgets everything but the walls: two grids wipe to the same
      grid exactly when they have the same walls. */
  lemma WipeKeepsOnlyWalls(g: Grid, h: Grid)
    ensures Wipe(g) == Wipe(h) <==> SameWalls(g, h)
  {
    if SameWalls(g, h) {
      Extensionality(Wipe(g), Wipe(h));
    }
    if Wipe(g) == Wipe(h) {
      forall q | InGrid(q)
        ensures At(g, q) == Wall <==> At(h, q) == Wall
      {
        assert At(Wipe(g), q) == At(Wipe(h), q);
      }
    }
  }

  /** Wiping twice is wiping once. */
  lemma WipeIdempotent(g: Grid)
    ensures Wipe(Wipe(g)) == Wipe(g)
  {
    WipeKeepsOnlyWalls(Wipe(g), g);
  }

  /** The start-up walls: a horizontal bar along the middle row and a vertical
      bar along the middle column, each leaving four cells free at both ends. */
  predicate OnPlus(q: Pos) {
    (q.y == Height / 2 && 4 <= q.x < Width - 4) || (q.x == Width / 2 && 4 <= q.y < Height - 4)
  }

  /** The two loops of the start-up code painting the plus into g. */
  method PaintPlus(g: Grid) returns (r: Grid)
    ensures forall q :: InGrid(q) ==> At(r, q) == if OnPlus(q) then Wall else At(g, q)
  {
    r := g;
    var i := 4;
    while i < Width - 4
      invariant 4 <= i <= Width - 4
      invariant forall q :: InGrid(q) ==>
        At(r, q) == if q.y == Height / 2 && 4 <= q.x < i then Wall else At(g, q)
    {
      r := Set(r, Pos(i, Height / 2), Wall);
      i := i + 1;
    }
    i := 4;
    while i < Height - 4
      invariant 4 <= i <= Height - 4
      invariant forall q :: InGrid(q) ==>
        At(r, q) == if (q.y == Height / 2 && 4 <= q.x < Width - 4) || (q.x == Width / 2 && 4 <= q.y < i)
                    then Wall else At(g, q)
    {
      r := Set(r, Pos(Width / 2, i), Wall);
      i := i + 1;
    }
  }
}

=== FILE: level.dfy ===
/** The level generator AdvanceLevel: wipe the grid down to its walls, put
    the robot back at its spawn cell, resize the mines array, reseed the
    random generator with the new level number and place the people and then
    the mines by bounded retry.

    rand() is modelled as a function of the seed and of the position in the
    stream: rand(seed, k) is the k-th value rand() returns after srand(seed).
    The stream is consumed in the source's order: for every attempt an x
    draw then a y draw; after a successful attempt one draw for the facing
    and, for a mine, one more for its speed. */
module Level {
  import opened Geometry
  import opened Grid
  import opened Game
  import opened Placement

  /** The cap on the number of mine slots. */
  const MaxMines: int := 50

  type Rand = (int, nat) -> nat

  /** The cell drawn by attempt a (counted from 0) of a search whose first
      draw is number k of the stream: `(rand() % GRID_WIDTH, rand() % GRID_HEIGHT)`.
      rand() is never negative, so C's `%` is Dafny's here. */
  function AttemptCell(rand: Rand, seed: int, k: nat, a: nat): (p: Pos)
    ensures InGrid(p)
  {
    Pos(rand(seed, k + 2 * a) % Width, rand(seed, k + 2 * a + 1) % Height)
  }

  /** Attempts a .. b - 1 all draw a cell that is not Air. */
  ghost predicate Blocked(g: Grid, rand: Rand, seed: int, k: nat, a: nat, b: nat) {
    forall c :: a <= c < b ==> At(g, AttemptCell(rand, seed, k, c)) != Air
  }

  /** Attempts a, a + 1, .. of one slot's search, stopping at the first Air
      cell drawn or after MaxAttempts attempts. It finds a cell exactly when
      one of its draws is Air, and then the first such draw; the stream then
      continues right after that attempt's two draws. */
  function Seek(g: Grid, rand: Rand, seed: int, k: nat, a: nat): (r: Search)
    requires a < MaxAttempts
    ensures r.Found? ==> a < r.attempts <= MaxAttempts && r.next == k + 2 * r.attempts
    ensures r.Found? ==> r.pos == AttemptCell(rand, seed, k, r.attempts - 1) && InGrid(r.pos) && At(g, r.pos) == Air
    decreases MaxAttempts - a
  {
    var p := AttemptCell(rand, seed, k, a);
    if At(g, p) == Air then Found(p, a + 1, k + 2 * a + 2)
    else if a + 1 < MaxAttempts then Seek(g, rand, seed, k, a + 1)
    else Exhausted
  }

  /** The search finds the first Air cell drawn: every attempt before the
      successful one drew a blocked cell, and it gives up exactly when all
      its attempts did. */
  lemma {:induction false} SeekFindsFirst(g: Grid, rand: Rand, seed: int, k: nat, a: nat)
    requires a < MaxAttempts
    ensures Seek(g, rand, seed, k, a).Found? ==> Blocked(g, rand, seed, k, a, Seek(g, rand, seed, k, a).attempts - 1)
    ensures Seek(g, rand, seed, k, a).Exhausted? <==> Blocked(g, rand, seed, k, a, MaxAttempts)
    decreases MaxAttempts - a
  {
    var r := Seek(g, rand, seed, k, a);
    if At(g, AttemptCell(rand, seed, k, a)) == Air {
      assert r.Found? && r.attempts - 1 == a;
      assert !Blocked(g, rand, seed, k, a, MaxAttempts);
    } else if a + 1 < MaxAttempts {
      SeekFindsFirst(g, rand, seed, k, a + 1);
      assert r == Seek(g, rand, seed, k, a + 1);
      BlockedStep(g, rand, seed, k, a, MaxAttempts);
      if r.Found? {
        BlockedStep(g, rand, seed, k, a, r.attempts - 1);
      }
    } else {
      assert r.Exhausted?;
      BlockedStep(g, rand, seed, k, a, MaxAttempts);
    }
  }

  /** A blocked first attempt can be dropped from a run of blocked attempts. */
  lemma BlockedStep(g: Grid, rand: Rand, seed: int, k: nat, a: nat, b: nat)
    requires a < b && At(g, AttemptCell(rand, seed, k, a)) != Air
    ensures Blocked(g, rand, seed, k, a, b) <==> Blocked(g, rand, seed, k, a + 1, b)
  {
  }

  /** The generator's search: Seek from the first attempt. */
  function SeekWith(rand: Rand, seed: int): Searcher {
    (g: Grid, k: nat) => Seek(g, rand, seed, k, 0)
  }

  lemma SeekWithIsSound(rand: Rand, seed: int)
    ensures Sound(SeekWith(rand, seed))
  {
  }

  /** The facing drawn at stream position n: `rand() % 4`. */
  function FacingWith(rand: Rand, seed: int): nat -> Direction {
    (n: nat) => FromOrd(rand(seed, n) % 4)
  }

  /** The mines array after the source puts every old mine on the sentinel
      and resizes the array to n slots: the first slots keep their facing,
      the new slots hold an arbitrary well-formed entity, given by junk. */
  function ClearedMines(previous: seq<MovingEntity>, n: nat, junk: nat -> MovingEntity): (r: seq<MovingEntity>)
    ensures |r| == n
    ensures forall i :: 0 <= i < n && i < |previous| ==> r[i] == MovingEntity(Sentinel, previous[i].dir)
    ensures forall i :: |previous| <= i < n ==> r[i] == junk(i)
  {
    seq(n, i requires 0 <= i < n => if i < |previous| then previous[i].(pos := Sentinel) else junk(i))
  }

  /** All people put on the sentinel, keeping their facing. */
  function ClearedPeople(people: seq<MovingEntity>): (r: seq<MovingEntity>)
    ensures |r| == |people|
    ensures forall i :: 0 <= i < |r| ==> r[i] == MovingEntity(Sentinel, people[i].dir)
  {
    seq(|people|, i requires 0 <= i < |people| => people[i].(pos := Sentinel))
  }

  /** The grid when placement starts: the walls, Air, and the robot's tag on
      its spawn cell, whatever that cell held. */
  function StartGrid(g: Grid): (r: Grid)
    ensures At(r, Respawn) == Robot
    ensures forall q :: InGrid(q) && q != Respawn ==> (At(r, q) == Wall <==> At(g, q) == Wall)
    ensures forall q :: InGrid(q) && q != Respawn ==> IsTerrain(At(r, q))
  {
    Set(Wipe(g), Respawn, Robot)
  }

  /** The number of mine slots on level `level`: `min(level * 5, 50)`. */
  function MineSlots(level: int): (n: nat)
    requires level >= 0
    ensures n <= MaxMines
    ensures level <= 10 ==> n == 5 * level
    ensures level >= 10 ==> n == MaxMines
  {
    Min(level * 5, MaxMines)
  }

  /** The people run of a level start: the people, all put on the sentinel,
      placed on the start grid from the start of the stream. */
  function PeopleRun(s: GameState, search: Searcher, facing: nat -> Direction): Spawned
    requires Sound(search)
  {
    PlaceFrom(StartGrid(s.grid), ClearedPeople(s.people), Person, 0, search, facing, 0, 0, [])
  }

  /** The mines run of a level start: the resized mines array placed on the
      grid the people run left, continuing the stream where it stopped. */
  function MinesRun(s: GameState, search: Searcher, facing: nat -> Direction, junk: nat -> MovingEntity): Spawned
    requires s.currentLevel >= 0 && Sound(search)
  {
    var people := PeopleRun(s, search, facing);
    PlaceFrom(people.grid, ClearedMines(s.mines, MineSlots(s.currentLevel + 1), junk), Mine, 1, search, facing, people.next, 0, [])
  }

  /** The level start for the search and the facing draw of the new level.
      The level goes up by one and the game pauses; the robot is back on its
      spawn cell with facing, cooldown and lives untouched; the mines array
      has five slots per level up to fifty. */
  function Spawn(s: GameState, search: Searcher, facing: nat -> Direction, junk: nat -> MovingEntity): (r: GameState)
    requires Valid(s) && s.currentLevel >= 0 && Sound(search)
    ensures Valid(r)
    ensures r.currentLevel == s.currentLevel + 1 && r.paused
    ensures r.robot == s.robot.(pos := Respawn)
    ensures r.livesRemaining == s.livesRemaining
    ensures |r.mines| == if r.currentLevel <= 10 then 5 * r.currentLevel else MaxMines
  {
    var people := PeopleRun(s, search, facing);
    var mines := MinesRun(s, search, facing, junk);
    s.(grid := mines.grid,
       currentLevel := s.currentLevel + 1,
       paused := true,
       robot := s.robot.(pos := Respawn),
       people := people.entities,
       mines := mines.entities,
       peopleRemaining := people.placed)
  }

  /** AdvanceLevel: the level start drawing from rand seeded with the new
      level number. */
  function AdvanceLevel(s: GameState, rand: Rand, junk: nat -> MovingEntity): (r: GameState)
    requires Valid(s) && s.currentLevel >= 0
    ensures Valid(r)
    ensures r.currentLevel == s.currentLevel + 1 && r.paused
    ensures r.robot == s.robot.(pos := Respawn)
    ensures r.livesRemaining == s.livesRemaining
    ensures |r.mines| == if r.currentLevel <= 10 then 5 * r.currentLevel else MaxMines
  {
    SeekWithIsSound(rand, s.currentLevel + 1);
    Spawn(s, SeekWith(rand, s.currentLevel + 1), FacingWith(rand, s.currentLevel + 1), junk)
  }

  /** After each mine slot's search the source prints a warning when the
      attempt counter has reached the bound, which it also has when the
      tenth attempt found a cell. */
  predicate WarnsAsWritten(o: Search) {
    AttemptsUsed(o) >= MaxAttempts
  }

  /** The evident intent: warn when the search gave up. */
  predicate Warns(o: Search) {
    !o.Found?
  }

  /** The warning decision applied to every slot's outcome. */
  function Flags(outcomes: seq<Search>, warns: Search -> bool): (w: seq<bool>)
    ensures |w| == |outcomes|
    ensures forall j :: 0 <= j < |w| ==> (w[j] <==> warns(outcomes[j]))
  {
    seq(|outcomes|, j requires 0 <= j < |outcomes| => warns(outcomes[j]))
  }

  /** Which mine slots print the spawn warning, as the source has it. */
  function MineWarningsAsWritten(s: GameState, search: Searcher, facing: nat -> Direction, junk: nat -> MovingEntity): (w: seq<bool>)
    requires s.currentLevel >= 0 && Sound(search)
    ensures |w| == MineSlots(s.currentLevel + 1)
  {
    Flags(MinesRun(s, search, facing, junk).outcomes, WarnsAsWritten)
  }

  /** Which mine slots print the spawn warning with the evident intent. */
  function MineWarnings(s: GameState, search: Searcher, facing: nat -> Direction, junk: nat -> MovingEntity): (w: seq<bool>)
    requires s.currentLevel >= 0 && Sound(search)
    ensures |w| == MineSlots(s.currentLevel + 1)
  {
    Flags(MinesRun(s, search, facing, junk).outcomes, Warns)
  }
}

=== FILE: level_facts.dfy ===
/** What a generated level looks like: the walls kept, the people counter in
    step with the people placed, entities only on cells the wipe left free,
    grid and entities in one-to-one correspondence, a level fixed by the
    walls and the level number, and the start-up level in particular. Also
    where the source's spawn warning departs from its evident intent. */
module LevelFacts {
  import opened Geometry
  import opened Grid
  import opened Game
  import opened Placement
  import opened Level

  /** The walls of the level are the walls before it, except that the spawn
      cell holds the robot whatever it held. */
  lemma SpawnKeepsWalls(s: GameState, search: Searcher, facing: nat -> Direction, junk: nat -> MovingEntity)
    requires Valid(s) && s.currentLevel >= 0 && Sound(search)
    ensures At(Spawn(s, search, facing, junk).grid, Respawn) == Robot
    ensures forall q :: InGrid(q) && q != Respawn ==> (At(Spawn(s, search, facing, junk).grid, q) == Wall <==> At(s.grid, q) == Wall)
  {
    var level := s.currentLevel + 1;
    var g0 := StartGrid(s.grid);
    var people, mines := PeopleRun(s, search, facing), MinesRun(s, search, facing, junk);
    PlaceFromFrame(g0, ClearedPeople(s.people), Person, 0, search, facing, 0, 0, []);
    PlaceFromFrame(people.grid, ClearedMines(s.mines, MineSlots(level), junk), Mine, 1,
                   search, facing, people.next, 0, []);
    ChangesKeepWalls(g0, people.grid, Person, people.outcomes);
    ChangesKeepWalls(people.grid, mines.grid, Mine, mines.outcomes);
  }

  /** Turning found Air cells into an entity's tag keeps the walls and the
      robot's tag where they were. */
  lemma ChangesKeepWalls(g: Grid, h: Grid, t: Cell, outcomes: seq<Search>)
    requires OnlyFoundCellsChange(g, h, t, outcomes, 0) && t != Wall && t != Robot
    ensures forall q :: InGrid(q) ==> (At(h, q) == Wall <==> At(g, q) == Wall)
    ensures forall q :: InGrid(q) ==> (At(h, q) == Robot <==> At(g, q) == Robot)
  {
  }

  /** The people counter is the number of people in play, at most five. */
  lemma SpawnCountsPeople(s: GameState, search: Searcher, facing: nat -> Direction, junk: nat -> MovingEntity)
    requires Valid(s) && s.currentLevel >= 0 && Sound(search)
    ensures CountersMatch(Spawn(s, search, facing, junk))
    ensures Spawn(s, search, facing, junk).peopleRemaining <= NumPeople
  {
    var level := s.currentLevel + 1;
    var people := PeopleRun(s, search, facing);
    PlaceFromCount(StartGrid(s.grid), ClearedPeople(s.people), Person, 0, search, facing, 0, 0, []);
    assert people.entities[0..] == people.entities;
  }

  /** Every person in play stands on its own Person cell, which before the
      level was neither a wall nor the spawn cell. */
  lemma SpawnPlacesPeople(s: GameState, search: Searcher, facing: nat -> Direction, junk: nat -> MovingEntity)
    requires Valid(s) && s.currentLevel >= 0 && Sound(search)
    ensures forall i :: 0 <= i < NumPeople && Active(Spawn(s, search, facing, junk).people[i]) ==>
      && PeopleRun(s, search, facing).outcomes[i].Found?
      && InGrid(Spawn(s, search, facing, junk).people[i].pos)
      && Spawn(s, search, facing, junk).people[i].pos != Respawn
      && At(s.grid, Spawn(s, search, facing, junk).people[i].pos) != Wall
      && At(Spawn(s, search, facing, junk).grid, Spawn(s, search, facing, junk).people[i].pos) == Person
  {
    var level := s.currentLevel + 1;
    var g0 := StartGrid(s.grid);
    var people, mines := PeopleRun(s, search, facing), MinesRun(s, search, facing, junk);
    PlaceFromKeeps(g0, ClearedPeople(s.people), Person, 0, search, facing, 0, 0, []);
    PlaceFromPlaces(g0, ClearedPeople(s.people), Person, 0, search, facing, 0, 0, []);
    PlaceFromFrame(people.grid, ClearedMines(s.mines, MineSlots(level), junk), Mine, 1,
                   search, facing, people.next, 0, []);
    assert OnlyFoundCellsChange(people.grid, mines.grid, Mine, mines.outcomes, 0);
    forall i | 0 <= i < NumPeople && !people.outcomes[i].Found?
      ensures !Active(people.entities[i])
    {
      assert people.entities[i] == ClearedPeople(s.people)[i];
    }
    forall i | 0 <= i < NumPeople && Active(people.entities[i])
      ensures people.outcomes[i].Found?
      ensures InGrid(people.entities[i].pos) && people.entities[i].pos != Respawn
      ensures At(s.grid, people.entities[i].pos) != Wall && At(mines.grid, people.entities[i].pos) == Person
    {
      var p := people.entities[i].pos;
      assert At(g0, p) == Air && At(people.grid, p) == Person;
    }
  }

  /** Mine slot j either got a cell, then the mine stands on its own Mine
      cell, which before the level was neither a wall nor the spawn cell;
      or its search gave up, and it holds what the resize left in it. */
  lemma SpawnPlacesMines(s: GameState, search: Searcher, facing: nat -> Direction, junk: nat -> MovingEntity)
    requires Valid(s) && s.currentLevel >= 0 && Sound(search)
    ensures forall j :: 0 <= j < |Spawn(s, search, facing, junk).mines| ==>
      if MinesRun(s, search, facing, junk).outcomes[j].Found? then
        && Spawn(s, search, facing, junk).mines[j].pos == MinesRun(s, search, facing, junk).outcomes[j].pos
        && InGrid(Spawn(s, search, facing, junk).mines[j].pos)
        && Spawn(s, search, facing, junk).mines[j].pos != Respawn
        && At(s.grid, Spawn(s, search, facing, junk).mines[j].pos) != Wall
        && At(Spawn(s, search, facing, junk).grid, Spawn(s, search, facing, junk).mines[j].pos) == Mine
      else
        Spawn(s, search, facing, junk).mines[j] == ClearedMines(s.mines, MineSlots(s.currentLevel + 1), junk)[j]
  {
    var level := s.currentLevel + 1;
    var g0 := StartGrid(s.grid);
    var people, mines := PeopleRun(s, search, facing), MinesRun(s, search, facing, junk);
    var cm := ClearedMines(s.mines, MineSlots(level), junk);
    PlaceFromFrame(g0, ClearedPeople(s.people), Person, 0, search, facing, 0, 0, []);
    PlaceFromKeeps(people.grid, cm, Mine, 1, search, facing, people.next, 0, []);
    PlaceFromPlaces(people.grid, cm, Mine, 1, search, facing, people.next, 0, []);
    assert OnlyFoundCellsChange(g0, people.grid, Person, people.outcomes, 0);
    forall j | 0 <= j < |mines.entities| && mines.outcomes[j].Found?
      ensures At(g0, mines.entities[j].pos) == Air
    {
      assert At(people.grid, mines.entities[j].pos) == Air;
    }
  }

  /** A family keeps its grid correspondence when only Air cells change, and
      none of them to its tag. */
  lemma OtherChangesKeepTagged(g: Grid, h: Grid, es: seq<MovingEntity>, t: Cell)
    requires Tagged(g, es, t) && t != Air
    requires forall q :: InGrid(q) && At(h, q) != At(g, q) ==> At(g, q) == Air && At(h, q) != t
    ensures Tagged(h, es, t)
  {
  }

  /** A generated level satisfies the occupancy invariant: the robot's tag is
      on its spawn cell and nowhere else, and people and mines in play are in
      one-to-one correspondence with the Person and Mine cells. This needs
      the fresh mine slots the resize adds to be out of play, since a slot
      whose search gives up keeps whatever it held. */
  lemma SpawnEstablishesOccupancy(s: GameState, search: Searcher, facing: nat -> Direction, junk: nat -> MovingEntity)
    requires Valid(s) && s.currentLevel >= 0 && Sound(search)
    requires forall i: nat :: !Active(junk(i))
    ensures Occupancy(Spawn(s, search, facing, junk))
  {
    var level := s.currentLevel + 1;
    var g0 := StartGrid(s.grid);
    var people, mines := PeopleRun(s, search, facing), MinesRun(s, search, facing, junk);
    var cp, cm := ClearedPeople(s.people), ClearedMines(s.mines, MineSlots(level), junk);
    PlaceFromFrame(g0, cp, Person, 0, search, facing, 0, 0, []);
    PlaceFromFrame(people.grid, cm, Mine, 1, search, facing, people.next, 0, []);
    assert OnlyFoundCellsChange(g0, people.grid, Person, people.outcomes, 0);
    assert OnlyFoundCellsChange(people.grid, mines.grid, Mine, mines.outcomes, 0);
    assert forall q :: InGrid(q) && q != Respawn ==> IsTerrain(At(g0, q));

    PlaceTagged(g0, cp, Person, 0, search, facing, 0);
    OtherChangesKeepTagged(people.grid, mines.grid, people.entities, Person);
    forall j | 0 <= j < |cm|
      ensures !Active(cm[j])
    {
      if j >= |s.mines| {
        assert cm[j] == junk(j);
      }
    }
    PlaceTagged(people.grid, cm, Mine, 1, search, facing, people.next);

    forall q | InGrid(q) && At(mines.grid, q) == Robot
      ensures q == Respawn
    {
      assert At(g0, q) == Robot;
    }
  }

  /** The generated level is fixed by the walls and the level number: the
      cells people and mines stood on before, and anything else the grid
      held besides walls, make no difference. The carried-over facings, the
      robot's cooldown, the lives and the number of mine slots are passed
      through, so they must agree too. */
  lemma SpawnDependsOnlyOnWalls(s1: GameState, s2: GameState, search: Searcher, facing: nat -> Direction, junk: nat -> MovingEntity)
    requires Valid(s1) && Valid(s2) && s1.currentLevel == s2.currentLevel >= 0 && Sound(search)
    requires SameWalls(s1.grid, s2.grid)
    requires s1.robot.dir == s2.robot.dir && s1.robot.moveCooldown == s2.robot.moveCooldown
    requires s1.livesRemaining == s2.livesRemaining
    requires forall i :: 0 <= i < NumPeople ==> s1.people[i].dir == s2.people[i].dir
    requires |s1.mines| == |s2.mines| && forall i :: 0 <= i < |s1.mines| ==> s1.mines[i].dir == s2.mines[i].dir
    ensures Spawn(s1, search, facing, junk) == Spawn(s2, search, facing, junk)
  {
    WipeKeepsOnlyWalls(s1.grid, s2.grid);
    assert StartGrid(s1.grid) == StartGrid(s2.grid);
    assert ClearedPeople(s1.people) == ClearedPeople(s2.people);
    var n := MineSlots(s1.currentLevel + 1);
    assert ClearedMines(s1.mines, n, junk) == ClearedMines(s2.mines, n, junk);
  }

  /** The first level after start-up: level 1, five mine slots, and the
      plus as the only walls, since the spawn cell (22, 7) is not on it. */
  lemma FirstLevel(s: GameState, search: Searcher, facing: nat -> Direction, junk: nat -> MovingEntity)
    requires Valid(s) && s.currentLevel == 0 && Sound(search)
    requires forall q :: InGrid(q) ==> (At(s.grid, q) == Wall <==> OnPlus(q))
    ensures Spawn(s, search, facing, junk).currentLevel == 1 && |Spawn(s, search, facing, junk).mines| == 5
    ensures forall q :: InGrid(q) ==> (At(Spawn(s, search, facing, junk).grid, q) == Wall <==> OnPlus(q))
  {
    RespawnIsInGrid();
    assert !OnPlus(Respawn);
    SpawnKeepsWalls(s, search, facing, junk);
  }

  /** A search whose attempts up to the ninth draw blocked cells and whose
      tenth draws an Air cell finds that cell on its last attempt. The
      source's warning fires for it although the cell was found; the
      corrected one does not. */
  lemma {:induction false} LastAttemptSucceeds(g: Grid, rand: Rand, seed: int, k: nat, a: nat)
    requires a < MaxAttempts
    requires Blocked(g, rand, seed, k, a, MaxAttempts - 1)
    requires At(g, AttemptCell(rand, seed, k, MaxAttempts - 1)) == Air
    ensures Seek(g, rand, seed, k, a) == Found(AttemptCell(rand, seed, k, MaxAttempts - 1), MaxAttempts, k + 2 * MaxAttempts)
    ensures WarnsAsWritten(Seek(g, rand, seed, k, a)) && !Warns(Seek(g, rand, seed, k, a))
    decreases MaxAttempts - a
  {
    if a < MaxAttempts - 1 {
      BlockedStep(g, rand, seed, k, a, MaxAttempts - 1);
      LastAttemptSucceeds(g, rand, seed, k, a + 1);
    }
  }

  /** Such an input exists: a grid walled in everywhere but (0, 0), and a
      stream whose draws are 1 until draw 18 and 0 from there on, so that
      attempts 1 to 9 draw (1, 1) and attempt 10 draws (0, 0). */
  function Walled(): (g: Grid)
    ensures At(g, Pos(0, 0)) == Air && At(g, Pos(1, 1)) == Wall
  {
    Set(seq(Width, _ => seq(Height, _ => Wall)), Pos(0, 0), Air)
  }

  function LateStream(seed: int, n: nat): nat {
    if n < 18 then 1 else 0
  }

  lemma LastAttemptExample()
    ensures Seek(Walled(), LateStream, 1, 0, 0) == Found(Pos(0, 0), MaxAttempts, 2 * MaxAttempts)
    ensures WarnsAsWritten(Seek(Walled(), LateStream, 1, 0, 0)) && !Warns(Seek(Walled(), LateStream, 1, 0, 0))
  {
    forall c | 0 <= c < MaxAttempts - 1
      ensures AttemptCell(LateStream, 1, 0, c) == Pos(1, 1)
    {
    }
    assert AttemptCell(LateStream, 1, 0, MaxAttempts - 1) == Pos(0, 0);
    LastAttemptSucceeds(Walled(), LateStream, 1, 0, 0);
  }

  /** The corrected warning fires exactly for the mine slots whose search
      gave up; with fresh slots out of play, exactly for the slots out of
      play after the level start. */
  lemma MineWarningsMarkUnplaced(s: GameState, search: Searcher, facing: nat -> Direction, junk: nat -> MovingEntity)
    requires Valid(s) && s.currentLevel >= 0 && Sound(search)
    ensures forall j :: 0 <= j < |Spawn(s, search, facing, junk).mines| ==>
      (MineWarnings(s, search, facing, junk)[j] <==> !MinesRun(s, search, facing, junk).outcomes[j].Found?)
    ensures (forall i: nat :: !Active(junk(i))) ==>
      forall j :: 0 <= j < |Spawn(s, search, facing, junk).mines| ==>
        (MineWarnings(s, search, facing, junk)[j] <==> !Active(Spawn(s, search, facing, junk).mines[j]))
  {
    SpawnPlacesMines(s, search, facing, junk);
    var cm := ClearedMines(s.mines, MineSlots(s.currentLevel + 1), junk);
    if forall i: nat :: !Active(junk(i)) {
      forall j | 0 <= j < |cm|
        ensures !Active(cm[j])
      {
        if j >= |s.mines| {
          assert cm[j] == junk(j);
        }
      }
    }
  }

  /** Finding: wherever a mine's search succeeds on its tenth attempt, the
      source warns that the attempts ran out although the mine is on the
      grid; the corrected warning is silent for it. */
  lemma AsWrittenWarnsForPlacedMine(s: GameState, search: Searcher, facing: nat -> Direction, junk: nat -> MovingEntity, j: nat)
    requires Valid(s) && s.currentLevel >= 0 && Sound(search)
    requires j < |MinesRun(s, search, facing, junk).outcomes|
    requires MinesRun(s, search, facing, junk).outcomes[j].Found? && MinesRun(s, search, facing, junk).outcomes[j].attempts == MaxAttempts
    ensures j < |Spawn(s, search, facing, junk).mines| && InGrid(Spawn(s, search, facing, junk).mines[j].pos)
    ensures At(Spawn(s, search, facing, junk).grid, Spawn(s, search, facing, junk).mines[j].pos) == Mine
    ensures MineWarningsAsWritten(s, search, facing, junk)[j] && !MineWarnings(s, search, facing, junk)[j]
  {
    SpawnPlacesMines(s, search, facing, junk);
  }

  /** Wherever the corrected warning fires the source's does too, and the
      source's fires beyond it only for mines placed on the tenth attempt. */
  lemma WarningsAgreeExceptLastAttempt(s: GameState, search: Searcher, facing: nat -> Direction, junk: nat -> MovingEntity)
    requires Valid(s) && s.currentLevel >= 0 && Sound(search)
    ensures forall j :: 0 <= j < |MineWarnings(s, search, facing, junk)| && MineWarnings(s, search, facing, junk)[j] ==>
      MineWarningsAsWritten(s, search, facing, junk)[j]
    ensures forall j :: 0 <= j < |MineWarnings(s, search, facing, junk)| && MineWarningsAsWritten(s, search, facing, junk)[j] && !MineWarnings(s, search, facing, junk)[j] ==>
      MinesRun(s, search, facing, junk).outcomes[j].Found? && MinesRun(s, search, facing, junk).outcomes[j].attempts == MaxAttempts
  {
    var level := s.currentLevel + 1;
    var people := PeopleRun(s, search, facing);
    PlaceFromPlaces(people.grid, ClearedMines(s.mines, MineSlots(level), junk), Mine, 1,
                    search, facing, people.next, 0, []);
  }
}

=== FILE: movement.dfy ===
/** The single-step movement and collision resolver MoveEntity.

    The interaction rules (what happens at the destination cell) are defined
    once, in Resolve. Two entry points wrap them: MoveEntityAsWritten keeps
    the source's bounds test and its `=+ -1` counter assignments;
    MoveEntity uses the bounds of the grid and decrements the counters,
    which is the behaviour the rest of the model builds on. */
module Movement {
  import opened Geometry
  import opened Grid
  import opened Game

  datatype Option<T> = None | Some(value: T)

  /** Which entity is moving. The source passes the cell tag and an isRobot
      flag separately; every caller passes the pair that belongs to the
      entity, so both are derived from the mover here. */
  datatype Mover = RobotMover | PersonMover(i: nat) | MineMover(i: nat)

  predicate Movable(s: GameState, m: Mover) {
    match m
    case RobotMover => true
    case PersonMover(i) => i < |s.people|
    case MineMover(i) => i < |s.mines|
  }

  predicate IsRobot(m: Mover) {
    m.RobotMover?
  }

  function TagOf(m: Mover): Cell {
    match m
    case RobotMover => Robot
    case PersonMover(_) => Person
    case MineMover(_) => Mine
  }

  function PosOf(s: GameState, m: Mover): Pos
    requires Movable(s, m)
  {
    match m
    case RobotMover => s.robot.pos
    case PersonMover(i) => s.people[i].pos
    case MineMover(i) => s.mines[i].pos
  }

  function DirOf(s: GameState, m: Mover): Direction
    requires Movable(s, m)
  {
    match m
    case RobotMover => s.robot.dir
    case PersonMover(i) => s.people[i].dir
    case MineMover(i) => s.mines[i].dir
  }

  /** `*pos = p` for the mover. */
  function Relocate(s: GameState, m: Mover, p: Pos): (r: GameState)
    requires Movable(s, m)
    ensures Movable(r, m) && PosOf(r, m) == p && DirOf(r, m) == DirOf(s, m)
    ensures OthersUnchanged(s, r, m)
    ensures r.grid == s.grid && r.peopleRemaining == s.peopleRemaining && r.livesRemaining == s.livesRemaining
  {
    match m
    case RobotMover => s.(robot := s.robot.(pos := p))
    case PersonMover(i) => s.(people := s.people[i := s.people[i].(pos := p)])
    case MineMover(i) => s.(mines := s.mines[i := s.mines[i].(pos := p)])
  }

  /** Nothing but the mover's own position, the grid and the two counters
      differs between s and r. */
  ghost predicate OthersUnchanged(s: GameState, r: GameState, m: Mover) {
    && r.currentLevel == s.currentLevel
    && r.paused == s.paused
    && r.robot.dir == s.robot.dir
    && r.robot.moveCooldown == s.robot.moveCooldown
    && (m != RobotMover ==> r.robot.pos == s.robot.pos)
    && |r.people| == |s.people|
    && |r.mines| == |s.mines|
    && (forall i :: 0 <= i < |s.people| && m != PersonMover(i) ==> r.people[i] == s.people[i])
    && (forall i :: 0 <= i < |s.people| ==> r.people[i].dir == s.people[i].dir)
    && (forall i :: 0 <= i < |s.mines| && m != MineMover(i) ==> r.mines[i] == s.mines[i])
    && (forall i :: 0 <= i < |s.mines| ==> r.mines[i].dir == s.mines[i].dir)
  }

  /** The cell one step ahead of the mover: pos + DIR_VECTORS[dir]. */
  function Ahead(s: GameState, m: Mover): (p: Pos)
    requires Movable(s, m)
    ensures p != PosOf(s, m)
  {
    Translate(PosOf(s, m), DirVector(DirOf(s, m)))
  }

  /** How a counter is lowered on a rescue or a hazard. The source writes
      `counter =+ -1`, which assigns -1; the evident intent is `-= 1`. */
  datatype Counting = AssignsMinusOne | Decrements

  function Lowered(c: Counting, n: int): int {
    match c
    case AssignsMinusOne => -1
    case Decrements => n - 1
  }

  /** The scan for the person standing on p: the first index from i on
      whose position equals p, or |es| when there is none. */
  function FirstAt(es: seq<MovingEntity>, p: Pos, i: nat): (k: nat)
    requires i <= |es|
    ensures i <= k <= |es|
    ensures k < |es| ==> es[k].pos == p
    ensures forall j :: i <= j < k ==> es[j].pos != p
    decreases |es| - i
  {
    if i == |es| then |es|
    else if es[i].pos == p then i
    else FirstAt(es, p, i + 1)
  }

  /** Moves the first person found on p (in index order) to the sentinel;
      every other person is left alone. */
  function DeactivateFirstAt(es: seq<MovingEntity>, p: Pos): (r: seq<MovingEntity>)
    ensures |r| == |es|
    ensures (forall j :: 0 <= j < |es| ==> es[j].pos != p) ==> r == es
    ensures forall k :: 0 <= k < |es| && es[k].pos == p && (forall j :: 0 <= j < k ==> es[j].pos != p) ==>
      r == es[k := es[k].(pos := Sentinel)]
  {
    var k := FirstAt(es, p, 0);
    if k < |es| then es[k := es[k].(pos := Sentinel)] else es
  }

  /** The robot steps onto a Person cell. */
  predicate Rescues(s: GameState, m: Mover)
    requires Movable(s, m)
  {
    IsRobot(m) && InGrid(Ahead(s, m)) && At(s.grid, Ahead(s, m)) == Person
  }

  /** The robot steps onto a Wall or a Mine cell. */
  predicate Hazard(s: GameState, m: Mover)
    requires Movable(s, m)
  {
    IsRobot(m) && InGrid(Ahead(s, m)) && At(s.grid, Ahead(s, m)) in {Wall, Mine}
  }

  /** A person or a mine steps onto a Robot cell. */
  predicate Tramples(s: GameState, m: Mover)
    requires Movable(s, m)
  {
    !IsRobot(m) && InGrid(Ahead(s, m)) && At(s.grid, Ahead(s, m)) == Robot
  }

  /** The interaction rules at an in-grid destination. A person or a mine
      is stopped by a Person, Wall or Mine cell and changes nothing. The
      robot on a Person cell deactivates the first person found there,
      lowers the people counter and carries on. The robot on a Wall or Mine
      cell lowers the lives counter and is put back at Respawn without the
      grid being touched. Otherwise the move is accepted: the source cell
      becomes Air, the destination takes the mover's tag (also when it held
      the robot) and the mover stands on the destination. */
  function Resolve(s: GameState, m: Mover, c: Counting): (r: GameState)
    requires Movable(s, m) && InGrid(PosOf(s, m)) && InGrid(Ahead(s, m))
    ensures !IsRobot(m) && At(s.grid, Ahead(s, m)) in {Person, Wall, Mine} ==> r == s
    ensures Hazard(s, m) ==>
      r == s.(livesRemaining := Lowered(c, s.livesRemaining), robot := s.robot.(pos := Respawn))
    ensures IsRobot(m) || At(s.grid, Ahead(s, m)) !in {Person, Wall, Mine} ==> Movable(r, m)
    ensures !Hazard(s, m) && (IsRobot(m) || At(s.grid, Ahead(s, m)) !in {Person, Wall, Mine}) ==>
      && PosOf(r, m) == Ahead(s, m)
      && DirOf(r, m) == DirOf(s, m)
      && At(r.grid, PosOf(s, m)) == Air
      && At(r.grid, Ahead(s, m)) == TagOf(m)
      && (forall q :: InGrid(q) && q != PosOf(s, m) && q != Ahead(s, m) ==> At(r.grid, q) == At(s.grid, q))
      && r.livesRemaining == s.livesRemaining
    ensures Rescues(s, m) ==>
      && r.peopleRemaining == Lowered(c, s.peopleRemaining)
      && OthersUnchanged(s.(people := DeactivateFirstAt(s.people, Ahead(s, m))), r, m)
    ensures !Hazard(s, m) && !Rescues(s, m) ==>
      r.peopleRemaining == s.peopleRemaining && OthersUnchanged(s, r, m)
  {
    var src := PosOf(s, m);
    var dest := Ahead(s, m);
    var target := At(s.grid, dest);
    if target == Person && !IsRobot(m) then s
    else
      var s1 := if target == Person
                then s.(peopleRemaining := Lowered(c, s.peopleRemaining),
                        people := DeactivateFirstAt(s.people, dest))
                else s;
      if target == Wall || target == Mine then
        if IsRobot(m) then
          s1.(livesRemaining := Lowered(c, s1.livesRemaining), robot := s1.robot.(pos := Respawn))
        else s1
      else
        Relocate(s1, m, dest).(grid := Set(Set(s1.grid, src, Air), dest, TagOf(m)))
  }

  /** The bounds test of the source: x and y must lie in 1 ..= 30. */
  predicate PassesSourceCheck(p: Pos) {
    !(p.x > Width || p.x <= 0 || p.y > Height || p.y <= 0)
  }

  /** The move into an in-grid destination goes through to the write of
      the mover's old cell: the destination holds neither a wall nor a
      mine, and a person or a mine is not stopped by a person. */
  predicate Accepts(s: GameState, m: Mover)
    requires Movable(s, m) && InGrid(Ahead(s, m))
  {
    At(s.grid, Ahead(s, m)) !in {Wall, Mine} && (IsRobot(m) || At(s.grid, Ahead(s, m)) != Person)
  }

  /** MoveEntity as the source has it. None stands for the undefined
      behaviour of touching the grid outside the array: the source's test
      lets a destination with a coordinate equal to 30 through to the read,
      and a mover standing off the grid (a mine slot never placed) that is
      let through to an accepted move has its old cell written outside the
      grid. A mover standing off the grid that is stopped is not written. */
  function MoveEntityAsWritten(s: GameState, m: Mover): (r: Option<GameState>)
    requires Movable(s, m)
    ensures !PassesSourceCheck(Ahead(s, m)) ==> r == Some(s)
    ensures r.None? <==>
      (PassesSourceCheck(Ahead(s, m)) &&
       (!InGrid(Ahead(s, m)) || (!InGrid(PosOf(s, m)) && Accepts(s, m))))
    ensures r.None? && InGrid(PosOf(s, m)) ==> Ahead(s, m).x == Width || Ahead(s, m).y == Height
    ensures PassesSourceCheck(Ahead(s, m)) && InGrid(Ahead(s, m)) && InGrid(PosOf(s, m)) ==>
      r == Some(Resolve(s, m, AssignsMinusOne))
    ensures (PassesSourceCheck(Ahead(s, m)) && InGrid(Ahead(s, m)) && !InGrid(PosOf(s, m)) &&
             !Accepts(s, m) && !IsRobot(m)) ==> r == Some(s)
    ensures (PassesSourceCheck(Ahead(s, m)) && InGrid(Ahead(s, m)) && !InGrid(PosOf(s, m)) &&
             !Accepts(s, m) && IsRobot(m)) ==>
      r == Some(s.(livesRemaining := -1, robot := s.robot.(pos := Respawn)))
  {
    var dest := Ahead(s, m);
    if !PassesSourceCheck(dest) then Some(s)
    else if !InGrid(dest) then None
    else if InGrid(PosOf(s, m)) then Some(Resolve(s, m, AssignsMinusOne))
    else if Accepts(s, m) then None
    else if IsRobot(m) then Some(s.(livesRemaining := Lowered(AssignsMinusOne, s.livesRemaining), robot := s.robot.(pos := Respawn)))
    else Some(s)
  }

  /** MoveEntity with the bounds of the grid, [0, 30) on both axes, and
      counters that are decremented. The mover always ends on the grid and
      only the mover's source and destination cells can change. */
  function MoveEntity(s: GameState, m: Mover): (r: GameState)
    requires Movable(s, m) && InGrid(PosOf(s, m))
    ensures !InGrid(Ahead(s, m)) ==> r == s
    ensures InGrid(Ahead(s, m)) ==> r == Resolve(s, m, Decrements)
    ensures Movable(r, m) && InGrid(PosOf(r, m))
    ensures forall q :: InGrid(q) && q != PosOf(s, m) && q != Ahead(s, m) ==> At(r.grid, q) == At(s.grid, q)
    ensures r.livesRemaining == (if Hazard(s, m) then s.livesRemaining - 1 else s.livesRemaining)
    ensures r.peopleRemaining == (if Rescues(s, m) then s.peopleRemaining - 1 else s.peopleRemaining)
  {
    if !InGrid(Ahead(s, m)) then s else Resolve(s, m, Decrements)
  }
}

=== FILE: movement_facts.dfy ===
/** What a single MoveEntity step does to the occupancy invariant and to the
    people counter, and where the source's version of the step departs from
    the corrected one. */
module MovementFacts {
  import opened Geometry
  import opened Grid
  import opened Game
  import opened Movement

  /** h is g with src cleared to Air and dest tagged t, nothing else changed. */
  ghost predicate Stepped(g: Grid, h: Grid, src: Pos, dest: Pos, t: Cell)
    requires InGrid(src) && InGrid(dest)
  {
    && At(h, src) == Air
    && At(h, dest) == t
    && forall q :: InGrid(q) && q != src && q != dest ==> At(h, q) == At(g, q)
  }

  /** The family that moves keeps its grid correspondence when its k-th
      member steps from its cell onto an Air cell. */
  lemma StepKeepsTagged(g: Grid, h: Grid, es: seq<MovingEntity>, fs: seq<MovingEntity>, t: Cell, k: nat, dest: Pos)
    requires Tagged(g, es, t) && t != Air
    requires k < |es| && Active(es[k]) && InGrid(dest) && At(g, dest) == Air
    requires |fs| == |es| && fs[k].pos == dest
    requires forall j :: 0 <= j < |es| && j != k ==> fs[j] == es[j]
    requires InGrid(es[k].pos) && Stepped(g, h, es[k].pos, dest, t)
    ensures Tagged(h, fs, t)
  {
    var src := es[k].pos;
    forall i | 0 <= i < |fs| && Active(fs[i])
      ensures InGrid(fs[i].pos) && At(h, fs[i].pos) == t
    {
      if i != k {
        assert es[i].pos != src;
      }
    }
    forall i, j | 0 <= i < |fs| && 0 <= j < |fs| && i != j && Active(fs[i])
      ensures fs[i].pos != fs[j].pos
    {
      if i == k {
        assert fs[j] == es[j];
      } else if j == k {
        assert fs[i] == es[i];
      }
    }
    forall q | InGrid(q) && At(h, q) == t
      ensures exists i :: 0 <= i < |fs| && fs[i].pos == q
    {
      if q == dest {
        assert fs[k].pos == q;
      } else {
        assert q != src;
        var i :| 0 <= i < |es| && es[i].pos == q;
        assert i != k && fs[i].pos == q;
      }
    }
  }

  /** A family that does not move keeps its grid correspondence when some
      other entity steps between two cells not tagged with its tag. */
  lemma StepKeepsOtherTagged(g: Grid, h: Grid, es: seq<MovingEntity>, t: Cell, src: Pos, dest: Pos, u: Cell)
    requires Tagged(g, es, t) && t != Air && u != t
    requires InGrid(src) && InGrid(dest) && At(g, src) != t && At(g, dest) != t
    requires Stepped(g, h, src, dest, u)
    ensures Tagged(h, es, t)
  {
  }

  /** The people keep their grid correspondence when the robot steps from
      its cell onto a Person cell and the first person found there leaves play. */
  lemma RescueKeepsTagged(g: Grid, h: Grid, es: seq<MovingEntity>, src: Pos, dest: Pos)
    requires Tagged(g, es, Person)
    requires InGrid(src) && InGrid(dest) && At(g, src) == Robot && At(g, dest) == Person
    requires Stepped(g, h, src, dest, Robot)
    ensures Tagged(h, DeactivateFirstAt(es, dest), Person)
  {
    var fs := DeactivateFirstAt(es, dest);
    var w :| 0 <= w < |es| && es[w].pos == dest;
    var k := FirstAt(es, dest, 0);
    assert k < |es|;
    assert fs == es[k := es[k].(pos := Sentinel)];
    forall i | 0 <= i < |fs| && Active(fs[i])
      ensures InGrid(fs[i].pos) && At(h, fs[i].pos) == Person
    {
      assert i != k && fs[i] == es[i];
      assert es[i].pos != es[k].pos;
    }
    forall q | InGrid(q) && At(h, q) == Person
      ensures exists i :: 0 <= i < |fs| && fs[i].pos == q
    {
      var i :| 0 <= i < |es| && es[i].pos == q;
      assert i != k && fs[i].pos == q;
    }
  }

  /** The cell a mover leaves carries its own tag. */
  lemma MoverStandsOnItsTag(s: GameState, m: Mover)
    requires Occupancy(s) && Movable(s, m) && InGrid(PosOf(s, m))
    ensures At(s.grid, PosOf(s, m)) == TagOf(m)
  {
    match m
    case RobotMover =>
    case PersonMover(i) => assert Active(s.people[i]);
    case MineMover(i) => assert Active(s.mines[i]);
  }

  /** A step keeps grid and entities in one-to-one correspondence unless the
      robot runs into a hazard or a person or mine walks onto the robot. */
  lemma MoveEntityKeepsOccupancy(s: GameState, m: Mover)
    requires Occupancy(s) && Movable(s, m) && InGrid(PosOf(s, m))
    requires !Hazard(s, m) && !Tramples(s, m)
    ensures Occupancy(MoveEntity(s, m))
  {
    var dest := Ahead(s, m);
    if !InGrid(dest) || (!IsRobot(m) && At(s.grid, dest) in {Person, Wall, Mine}) {
      assert MoveEntity(s, m) == s;
      return;
    }
    MoverStandsOnItsTag(s, m);
    match m {
      case RobotMover => RobotStepKeepsOccupancy(s);
      case PersonMover(i) => PersonStepKeepsOccupancy(s, i);
      case MineMover(i) => MineStepKeepsOccupancy(s, i);
    }
  }

  /** The robot's step onto an Air or a Person cell. */
  lemma RobotStepKeepsOccupancy(s: GameState)
    requires Occupancy(s) && InGrid(Ahead(s, RobotMover)) && !Hazard(s, RobotMover)
    ensures Occupancy(MoveEntity(s, RobotMover))
  {
    var m := RobotMover;
    var r := MoveEntity(s, m);
    var src, dest := PosOf(s, m), Ahead(s, m);
    var g, h := s.grid, r.grid;
    assert Stepped(g, h, src, dest, Robot);
    if At(g, dest) == Person {
      assert r.people == DeactivateFirstAt(s.people, dest);
      RescueKeepsTagged(g, h, s.people, src, dest);
    } else {
      assert At(g, dest) == Air;
      assert r.people == s.people;
      StepKeepsOtherTagged(g, h, s.people, Person, src, dest, Robot);
    }
    assert r.mines == s.mines;
    StepKeepsOtherTagged(g, h, s.mines, Mine, src, dest, Robot);
  }

  /** Person i's step onto an Air cell. */
  lemma PersonStepKeepsOccupancy(s: GameState, i: nat)
    requires Occupancy(s) && i < |s.people| && InGrid(s.people[i].pos)
    requires InGrid(Ahead(s, PersonMover(i))) && At(s.grid, Ahead(s, PersonMover(i))) == Air
    ensures Occupancy(MoveEntity(s, PersonMover(i)))
  {
    var m := PersonMover(i);
    var r := MoveEntity(s, m);
    var src, dest := PosOf(s, m), Ahead(s, m);
    var g, h := s.grid, r.grid;
    assert Active(s.people[i]);
    assert Stepped(g, h, src, dest, Person);
    StepKeepsTagged(g, h, s.people, r.people, Person, i, dest);
    assert r.mines == s.mines;
    StepKeepsOtherTagged(g, h, s.mines, Mine, src, dest, Person);
    assert s.robot.pos != src && s.robot.pos != dest;
  }

  /** Mine i's step onto an Air cell. */
  lemma MineStepKeepsOccupancy(s: GameState, i: nat)
    requires Occupancy(s) && i < |s.mines| && InGrid(s.mines[i].pos)
    requires InGrid(Ahead(s, MineMover(i))) && At(s.grid, Ahead(s, MineMover(i))) == Air
    ensures Occupancy(MoveEntity(s, MineMover(i)))
  {
    var m := MineMover(i);
    var r := MoveEntity(s, m);
    var src, dest := PosOf(s, m), Ahead(s, m);
    var g, h := s.grid, r.grid;
    assert Active(s.mines[i]);
    assert Stepped(g, h, src, dest, Mine);
    StepKeepsTagged(g, h, s.mines, r.mines, Mine, i, dest);
    assert r.people == s.people;
    StepKeepsOtherTagged(g, h, s.people, Person, src, dest, Mine);
    assert s.robot.pos != src && s.robot.pos != dest;
  }

  /** A step keeps the people counter equal to the number of people in play:
      a rescue takes exactly one person out and lowers the counter by one. */
  lemma MoveEntityKeepsCounters(s: GameState, m: Mover)
    requires Occupancy(s) && CountersMatch(s) && Movable(s, m) && InGrid(PosOf(s, m))
    ensures CountersMatch(MoveEntity(s, m))
  {
    var r := MoveEntity(s, m);
    var dest := Ahead(s, m);
    if !InGrid(dest) || Hazard(s, m) || (!IsRobot(m) && At(s.grid, dest) in {Person, Wall, Mine}) {
      assert r.people == s.people;
    } else if Rescues(s, m) {
      RescueKeepsCounters(s);
    } else {
      match m {
        case PersonMover(i) =>
          assert Active(s.people[i]);
          assert r.people == s.people[i := s.people[i].(pos := dest)];
          CountActiveRelocate(s.people, i, s.people[i].(pos := dest));
        case RobotMover =>
          assert r.people == s.people;
        case MineMover(_) =>
          assert r.people == s.people;
      }
    }
  }

  /** A rescue takes exactly one person out of play and lowers the counter
      by one. */
  lemma RescueKeepsCounters(s: GameState)
    requires Occupancy(s) && CountersMatch(s) && InGrid(s.robot.pos) && Rescues(s, RobotMover)
    ensures CountersMatch(MoveEntity(s, RobotMover))
  {
    var r := MoveEntity(s, RobotMover);
    var dest := Ahead(s, RobotMover);
    var w :| 0 <= w < |s.people| && s.people[w].pos == dest;
    var k := FirstAt(s.people, dest, 0);
    assert k < |s.people| && Active(s.people[k]);
    assert r.people == DeactivateFirstAt(s.people, dest) == s.people[k := s.people[k].(pos := Sentinel)];
    CountActiveDeactivate(s.people, k, s.people[k].(pos := Sentinel));
  }

  /** A hazard leaves the robot's old Robot tag behind and does not tag the
      respawn cell, so the grid no longer mirrors the robot. */
  lemma HazardLeavesStaleRobotTag(s: GameState)
    requires Occupancy(s) && Hazard(s, RobotMover) && s.robot.pos != Respawn
    ensures var r := MoveEntity(s, RobotMover);
      At(r.grid, s.robot.pos) == Robot && r.robot.pos == Respawn && !Occupancy(r)
  {
  }

  /** A person or mine walking onto the robot overwrites the robot's tag. */
  lemma TramplingOverwritesRobot(s: GameState, m: Mover)
    requires Occupancy(s) && Movable(s, m) && InGrid(PosOf(s, m)) && Tramples(s, m)
    ensures var r := MoveEntity(s, m);
      r.robot.pos == s.robot.pos && At(r.grid, s.robot.pos) == TagOf(m) && !Occupancy(r)
  {
    assert Ahead(s, m) == s.robot.pos;
  }

  /** Finding: the source's bounds test admits x = 30. A mover on the last
      column facing East reaches the grid read at a column the array does
      not have. */
  lemma AsWrittenReadsPastLastColumn(s: GameState, m: Mover)
    requires Movable(s, m) && InGrid(PosOf(s, m))
    requires PosOf(s, m).x == Width - 1 && PosOf(s, m).y >= 1 && DirOf(s, m) == East
    ensures MoveEntityAsWritten(s, m).None?
    ensures MoveEntity(s, m) == s
  {
  }

  /** Finding: the source's bounds test refuses x = 0, a column of the grid.
      A mover on column 1 facing West stays put even when column 0 is Air;
      the corrected step moves it there. */
  lemma AsWrittenRefusesColumnZero(s: GameState, m: Mover)
    requires Movable(s, m) && InGrid(PosOf(s, m))
    requires PosOf(s, m).x == 1 && DirOf(s, m) == West
    requires At(s.grid, Pos(0, PosOf(s, m).y)) == Air
    ensures MoveEntityAsWritten(s, m) == Some(s)
    ensures PosOf(MoveEntity(s, m), m) == Pos(0, PosOf(s, m).y)
  {
  }

  /** Finding: `peopleRemaining =+ -1` assigns -1. Whatever the counter held,
      the source's rescue leaves it at -1, which no number of people in play
      can match; the corrected step lowers it by exactly one. */
  lemma AsWrittenRescueAssignsMinusOne(s: GameState)
    requires InGrid(s.robot.pos) && Rescues(s, RobotMover) && PassesSourceCheck(Ahead(s, RobotMover))
    ensures MoveEntityAsWritten(s, RobotMover).Some?
    ensures MoveEntityAsWritten(s, RobotMover).value.peopleRemaining == -1
    ensures !CountersMatch(MoveEntityAsWritten(s, RobotMover).value)
    ensures MoveEntity(s, RobotMover).peopleRemaining == s.peopleRemaining - 1
  {
  }

  /** Finding: `livesRemaining =+ -1` assigns -1, so the first hazard takes
      the counter to -1 from any number of lives. */
  lemma AsWrittenHazardAssignsMinusOne(s: GameState)
    requires InGrid(s.robot.pos) && Hazard(s, RobotMover) && PassesSourceCheck(Ahead(s, RobotMover))
    ensures MoveEntityAsWritten(s, RobotMover).Some?
    ensures MoveEntityAsWritten(s, RobotMover).value.livesRemaining == -1
    ensures MoveEntity(s, RobotMover).livesRemaining == s.livesRemaining - 1
  {
  }
}

=== FILE: paint.dfy ===
/** PaintGridLine: the wall painter of the editing mode. It walks the cells of
    a Bresenham line from one grid cell to another and overwrites the
    terrain (Air or Wall) cells it visits with the painted tag, leaving cells
    that hold an entity alone.

    The walk is given twice: as the functional reference Trace, the sequence
    of cells the loop visits, and as the method PaintGridLine, which follows
    the source's loop step by step and is proved to paint exactly the
    terrain cells of Trace. */
module Paint {
  import opened Geometry
  import opened Grid

  /** The endpoints of one call. */
  datatype Line = Line(x0: int, y0: int, x1: int, y1: int)

  /** The loop's mutable state: the current cell and the error term. */
  datatype Cursor = Cursor(x: int, y: int, err: int)

  function Dx(l: Line): int { Abs(l.x1 - l.x0) }
  function Dy(l: Line): int { Abs(l.y1 - l.y0) }

  /** The step direction along an axis: 1 towards a larger end, else -1. */
  function StepSign(from: int, to: int): int {
    if from < to then 1 else -1
  }

  /** How far v has moved from `from` in the direction of `to`. */
  function Travelled(from: int, to: int, v: int): int {
    if from < to then v - from else from - v
  }

  function XSteps(l: Line, c: Cursor): int { Travelled(l.x0, l.x1, c.x) }
  function YSteps(l: Line, c: Cursor): int { Travelled(l.y0, l.y1, c.y) }

  /** The state before the first iteration: `err = dx - dy`. */
  function Start(l: Line): Cursor {
    Cursor(l.x0, l.y0, Dx(l) - Dy(l))
  }

  /** The loop invariant of the walk: the cursor has taken between 0 and dx
      steps along x and between 0 and dy along y, towards the far end, and
      the error term records them: it starts at dx - dy, loses dy per x step
      and gains dx per y step. */
  ghost predicate OnTrack(l: Line, c: Cursor) {
    0 <= XSteps(l, c) <= Dx(l) && 0 <= YSteps(l, c) <= Dy(l) &&
    c.err == Dx(l) - Dy(l) - XSteps(l, c) * Dy(l) + YSteps(l, c) * Dx(l)
  }

  /** The steps still to take. */
  function Remaining(l: Line, c: Cursor): int {
    (Dx(l) - XSteps(l, c)) + (Dy(l) - YSteps(l, c))
  }

  predicate AtEnd(l: Line, c: Cursor) {
    c.x == l.x1 && c.y == l.y1
  }

  /** One pass through the bottom of the loop body: with `e2 = 2 * err`, step
      along x when `e2 > -dy` and along y when `e2 < dx`, both tests reading
      the same e2. */
  function Step(l: Line, c: Cursor): Cursor {
    var e2 := 2 * c.err;
    var c1 := if e2 > -Dy(l) then Cursor(c.x + StepSign(l.x0, l.x1), c.y, c.err - Dy(l)) else c;
    if e2 < Dx(l) then Cursor(c1.x, c1.y + StepSign(l.y0, l.y1), c1.err + Dx(l)) else c1
  }

  lemma StartOnTrack(l: Line)
    ensures OnTrack(l, Start(l)) && XSteps(l, Start(l)) == 0 && YSteps(l, Start(l)) == 0
  {
  }

  /** Being at the far end is having taken all dx and dy steps. */
  lemma AtEndIsDone(l: Line, c: Cursor)
    requires OnTrack(l, c)
    ensures AtEnd(l, c) <==> XSteps(l, c) == Dx(l) && YSteps(l, c) == Dy(l)
  {
  }

  lemma MulMonotone(a: nat, b: int, c: int)
    requires b <= c
    ensures a * b <= a * c
  {
  }

  /** A step never passes the far end along x: with all x steps taken and y
      steps left, `2 * err <= -dy`. */
  lemma NoOvershootX(l: Line, c: Cursor)
    requires OnTrack(l, c) && XSteps(l, c) == Dx(l) && YSteps(l, c) < Dy(l)
    ensures 2 * c.err <= -Dy(l)
  {
    MulMonotone(Dx(l), YSteps(l, c) + 1, Dy(l));
  }

  /** A step never passes the far end along y: with all y steps taken and x
      steps left, `2 * err >= dx`. */
  lemma NoOvershootY(l: Line, c: Cursor)
    requires OnTrack(l, c) && YSteps(l, c) == Dy(l) && XSteps(l, c) < Dx(l)
    ensures 2 * c.err >= Dx(l)
  {
    MulMonotone(Dy(l), XSteps(l, c) + 1, Dx(l));
  }

  /** Away from the far end a step keeps the invariant, moves the cursor by
      at most one cell along each axis and by at least one along some axis,
      and brings it nearer the end. */
  lemma StepAdvances(l: Line, c: Cursor)
    requires OnTrack(l, c) && !AtEnd(l, c)
    ensures OnTrack(l, Step(l, c))
    ensures Remaining(l, Step(l, c)) < Remaining(l, c)
    ensures XSteps(l, c) <= XSteps(l, Step(l, c)) <= XSteps(l, c) + 1
    ensures YSteps(l, c) <= YSteps(l, Step(l, c)) <= YSteps(l, c) + 1
  {
    AtEndIsDone(l, c);
    var n := Step(l, c);
    var stepX, stepY := 2 * c.err > -Dy(l), 2 * c.err < Dx(l);
    if XSteps(l, c) == Dx(l) && YSteps(l, c) < Dy(l) {
      NoOvershootX(l, c);
    }
    if YSteps(l, c) == Dy(l) && XSteps(l, c) < Dx(l) {
      NoOvershootY(l, c);
    }
    assert stepX || stepY;
    assert XSteps(l, n) == if stepX then XSteps(l, c) + 1 else XSteps(l, c);
    assert YSteps(l, n) == if stepY then YSteps(l, c) + 1 else YSteps(l, c);
    ErrorTermStep(Dx(l), Dy(l), XSteps(l, c), YSteps(l, c), c.err, stepX, stepY);
  }

  /** The error term after a step records the steps taken. */
  lemma ErrorTermStep(dx: int, dy: int, xs: int, ys: int, err: int, stepX: bool, stepY: bool)
    requires err == dx - dy - xs * dy + ys * dx
    ensures (if stepY then err - (if stepX then dy else 0) + dx else err - (if stepX then dy else 0)) ==
      dx - dy - (if stepX then xs + 1 else xs) * dy + (if stepY then ys + 1 else ys) * dx
  {
  }

  /** The cells the loop visits from cursor c on, in order. */
  function TraceFrom(l: Line, c: Cursor): (t: seq<Pos>)
    requires OnTrack(l, c)
    ensures |t| >= 1 && t[0] == Pos(c.x, c.y)
    decreases Remaining(l, c)
  {
    if AtEnd(l, c) then [Pos(c.x, c.y)]
    else
      StepAdvances(l, c);
      [Pos(c.x, c.y)] + TraceFrom(l, Step(l, c))
  }

  /** The cells PaintGridLine visits, from (x0, y0) on. */
  function Trace(l: Line): (t: seq<Pos>)
  {
    StartOnTrack(l);
    TraceFrom(l, Start(l))
  }

  /** The body's write: `grid[x][y] = value` when the cell is in range and
      holds terrain. */
  function PaintCell(g: Grid, p: Pos, value: Cell): (r: Grid)
  {
    if InGrid(p) && IsTerrain(At(g, p)) then Set(g, p, value) else g
  }

  /** The writes of a whole walk, in visiting order. */
  function PaintAlong(g: Grid, cells: seq<Pos>, value: Cell): Grid
    decreases |cells|
  {
    if |cells| == 0 then g else PaintAlong(PaintCell(g, cells[0], value), cells[1..], value)
  }

  /** No cell appears twice. */
  predicate Distinct(cells: seq<Pos>) {
    forall i, j :: 0 <= i < j < |cells| ==> cells[i] != cells[j]
  }

  /** How far p lies along the walk: x steps plus y steps. */
  function Progress(l: Line, p: Pos): int {
    Travelled(l.x0, l.x1, p.x) + Travelled(l.y0, l.y1, p.y)
  }

  /** Every cell after the first lies strictly further along than the first,
      and every cell lies between the cursor and the far end. */
  lemma {:induction false} TraceFromAhead(l: Line, c: Cursor)
    requires OnTrack(l, c)
    ensures forall i :: 0 < i < |TraceFrom(l, c)| ==> Progress(l, TraceFrom(l, c)[i]) > Progress(l, Pos(c.x, c.y))
    ensures forall i :: 0 <= i < |TraceFrom(l, c)| ==>
      XSteps(l, c) <= Travelled(l.x0, l.x1, TraceFrom(l, c)[i].x) <= Dx(l) &&
      YSteps(l, c) <= Travelled(l.y0, l.y1, TraceFrom(l, c)[i].y) <= Dy(l)
    decreases Remaining(l, c)
  {
    if !AtEnd(l, c) {
      StepAdvances(l, c);
      TraceFromAhead(l, Step(l, c));
    }
  }

  /** The walk visits no cell twice. */
  lemma {:induction false} TraceFromDistinct(l: Line, c: Cursor)
    requires OnTrack(l, c)
    ensures Distinct(TraceFrom(l, c))
    decreases Remaining(l, c)
  {
    if !AtEnd(l, c) {
      StepAdvances(l, c);
      TraceFromDistinct(l, Step(l, c));
      TraceFromAhead(l, c);
    }
  }

  /** The walk ends on the far endpoint. */
  lemma {:induction false} TraceFromEnds(l: Line, c: Cursor)
    requires OnTrack(l, c)
    ensures TraceFrom(l, c)[|TraceFrom(l, c)| - 1] == Pos(l.x1, l.y1)
    decreases Remaining(l, c)
  {
    if !AtEnd(l, c) {
      StepAdvances(l, c);
      TraceFromEnds(l, Step(l, c));
    }
  }

  /** Consecutive cells of the walk are distinct and touch, sideways or
      diagonally. */
  lemma {:induction false} TraceFromConnected(l: Line, c: Cursor)
    requires OnTrack(l, c)
    ensures Connected(TraceFrom(l, c))
    decreases Remaining(l, c)
  {
    if !AtEnd(l, c) {
      StepAdvances(l, c);
      StepTouches(l, c);
      TraceFromConnected(l, Step(l, c));
      ConnectedCons(Pos(c.x, c.y), TraceFrom(l, Step(l, c)));
    }
  }

  /** Two different cells that share a side or a corner. */
  predicate Touches(p: Pos, q: Pos) {
    p != q && Abs(q.x - p.x) <= 1 && Abs(q.y - p.y) <= 1
  }

  /** Every cell of the walk touches the next. */
  predicate Connected(t: seq<Pos>) {
    forall i :: 0 <= i < |t| - 1 ==> Touches(t[i], t[i + 1])
  }

  lemma ConnectedCons(p: Pos, u: seq<Pos>)
    requires Connected(u) && |u| >= 1 && Touches(p, u[0])
    ensures Connected([p] + u)
  {
    var t := [p] + u;
    forall i | 0 <= i < |t| - 1
      ensures Touches(t[i], t[i + 1])
    {
      if i > 0 {
        assert t[i] == u[i - 1] && t[i + 1] == u[i];
      }
    }
  }

  /** A step moves to a different cell that touches the current one. */
  lemma StepTouches(l: Line, c: Cursor)
    requires OnTrack(l, c) && !AtEnd(l, c)
    ensures Touches(Pos(c.x, c.y), Pos(Step(l, c).x, Step(l, c).y))
  {
    StepAdvances(l, c);
  }

  /** The walk starts on (x0, y0), ends on (x1, y1), visits no cell twice and
      moves to a touching cell at every step. */
  lemma TraceShape(l: Line)
    ensures Trace(l)[0] == Pos(l.x0, l.y0) && Trace(l)[|Trace(l)| - 1] == Pos(l.x1, l.y1)
    ensures Distinct(Trace(l))
    ensures Connected(Trace(l))
  {
    StartOnTrack(l);
    TraceFromEnds(l, Start(l));
    TraceFromDistinct(l, Start(l));
    TraceFromConnected(l, Start(l));
  }

  /** Every visited cell lies in the box spanned by the endpoints, so a walk
      between two grid cells, the only calls the editor makes, stays on the
      grid. */
  lemma TraceInBox(l: Line)
    ensures forall i :: 0 <= i < |Trace(l)| ==>
      Min(l.x0, l.x1) <= Trace(l)[i].x <= Min(l.x0, l.x1) + Dx(l) &&
      Min(l.y0, l.y1) <= Trace(l)[i].y <= Min(l.y0, l.y1) + Dy(l)
    ensures InGrid(Pos(l.x0, l.y0)) && InGrid(Pos(l.x1, l.y1)) ==>
      forall i :: 0 <= i < |Trace(l)| ==> InGrid(Trace(l)[i])
  {
    StartOnTrack(l);
    TraceFromAhead(l, Start(l));
  }

  /** Painting a walk that visits no cell twice writes the tag into exactly
      the visited cells that hold terrain and leaves every other cell as it
      was. */
  lemma {:induction false} PaintAlongEffect(g: Grid, cells: seq<Pos>, value: Cell)
    requires Distinct(cells)
    ensures forall q :: InGrid(q) ==>
      At(PaintAlong(g, cells, value), q) == if q in cells && IsTerrain(At(g, q)) then value else At(g, q)
    decreases |cells|
  {
    if |cells| > 0 {
      var h := PaintCell(g, cells[0], value);
      assert Distinct(cells[1..]);
      PaintAlongEffect(h, cells[1..], value);
      forall q | InGrid(q)
        ensures At(PaintAlong(g, cells, value), q) == if q in cells && IsTerrain(At(g, q)) then value else At(g, q)
      {
        assert q in cells <==> q == cells[0] || q in cells[1..];
        if q == cells[0] {
          assert q !in cells[1..];
        }
      }
    }
  }

  /** The bottom of the loop body on the source's local variables. */
  method Advance(ghost l: Line, x: int, y: int, err: int, dx: int, dy: int, sx: int, sy: int)
    returns (x': int, y': int, err': int)
    requires dx == Dx(l) && dy == Dy(l) && sx == StepSign(l.x0, l.x1) && sy == StepSign(l.y0, l.y1)
    ensures Cursor(x', y', err') == Step(l, Cursor(x, y, err))
  {
    x', y', err' := x, y, err;
    var e2 := 2 * err;
    if e2 > -dy {
      err' := err' - dy;
      x' := x' + sx;
    }
    if e2 < dx {
      err' := err' + dx;
      y' := y' + sy;
    }
  }

  /** The walk of the source, step by step. It paints exactly the visited
      cells that held Air or Wall; cells holding the robot, a mine or a
      person, and every cell off the walk, keep their tag. */
  method PaintGridLine(g: Grid, x0: int, y0: int, x1: int, y1: int, value: Cell) returns (r: Grid)
    ensures r == PaintAlong(g, Trace(Line(x0, y0, x1, y1)), value)
    ensures forall q :: InGrid(q) ==>
      At(r, q) == if q in Trace(Line(x0, y0, x1, y1)) && IsTerrain(At(g, q)) then value else At(g, q)
  {
    ghost var l := Line(x0, y0, x1, y1);
    var dx: int := Abs(x1 - x0);
    var dy: int := Abs(y1 - y0);
    var sx := if x0 < x1 then 1 else -1;
    var sy := if y0 < y1 then 1 else -1;
    var err := dx - dy;
    var x, y := x0, y0;
    r := g;
    StartOnTrack(l);
    while true
      invariant OnTrack(l, Cursor(x, y, err))
      invariant PaintAlong(r, TraceFrom(l, Cursor(x, y, err)), value) == PaintAlong(g, Trace(l), value)
      decreases Remaining(l, Cursor(x, y, err))
    {
      ghost var c := Cursor(x, y, err);
      r := PaintCell(r, Pos(x, y), value);
      if x == x1 && y == y1 {
        break;
      }
      StepAdvances(l, c);
      x, y, err := Advance(l, x, y, err, dx, dy, sx, sy);
    }
    TraceShape(l);
    PaintAlongEffect(g, Trace(l), value);
  }
}

=== FILE: placement.dfy ===
/** The bounded-retry placement loop shared by people and mines, stated for
    any search that only ever returns free in-grid cells. */
module Placement {
  import opened Geometry
  import opened Grid
  import opened Game

  /** The attempt bound of one search. */
  const MaxAttempts: nat := 10

  /** The outcome of one bounded-retry search for an Air cell: the cell, the
      number of attempts made, and the stream position after the last draw;
      or no cell after MaxAttempts attempts. */
  datatype Search = Found(pos: Pos, attempts: nat, next: nat) | Exhausted

  /** The attempt counter at the end of the search. */
  function AttemptsUsed(r: Search): nat {
    if r.Found? then r.attempts else MaxAttempts
  }

  /** A search strategy: the outcome of searching grid g with the random
      stream at position k. */
  type Searcher = (Grid, nat) -> Search

  /** The search only ever reports an in-grid Air cell, found within the
      attempt bound. */
  ghost predicate Sound(search: Searcher) {
    forall g: Grid, k: nat :: search(g, k).Found? ==>
      InGrid(search(g, k).pos) && At(g, search(g, k).pos) == Air && search(g, k).attempts <= MaxAttempts
  }

  /** The grid, the entities and the stream position after placing a family,
      the number of slots that got a cell, and the outcome of each slot's
      search in slot order. */
  datatype Spawned = Spawned(grid: Grid, entities: seq<MovingEntity>, next: nat, placed: nat, outcomes: seq<Search>)

  /** The placement loop over slots i.. of es, with log the outcomes of
      slots 0 .. i - 1. Each slot gets one search; on success the entity
      stands on the found cell facing the direction drawn next, the cell
      takes tag t and `extra` further draws are skipped; after a failed
      search the slot is left as it is and the stream has moved on by the
      2 * MaxAttempts draws of the attempts. */
  function PlaceFrom(g: Grid, es: seq<MovingEntity>, t: Cell, extra: nat, search: Searcher, facing: nat -> Direction,
                     k: nat, i: nat, log: seq<Search>): (r: Spawned)
    requires i <= |es| && |log| == i && Sound(search)
    ensures |r.entities| == |es| && |r.outcomes| == |es|
    ensures forall j :: 0 <= j < i ==> r.entities[j] == es[j] && r.outcomes[j] == log[j]
    decreases |es| - i
  {
    if i == |es| then Spawned(g, es, k, 0, log)
    else
      var o := search(g, k);
      if o.Found? then
        var rest := PlaceFrom(Set(g, o.pos, t), es[i := MovingEntity(o.pos, facing(o.next))], t, extra, search, facing,
                              o.next + 1 + extra, i + 1, log + [o]);
        rest.(placed := rest.placed + 1)
      else
        PlaceFrom(g, es, t, extra, search, facing, k + 2 * MaxAttempts, i + 1, log + [o])
  }

  /** Going from g to h only turns Air cells into t, and each such cell is
      the cell found by the search of one of the slots i.. . */
  ghost predicate OnlyFoundCellsChange(g: Grid, h: Grid, t: Cell, outcomes: seq<Search>, i: nat) {
    forall q :: InGrid(q) && At(h, q) != At(g, q) ==>
      && At(g, q) == Air && At(h, q) == t
      && exists j :: i <= j < |outcomes| && outcomes[j].Found? && outcomes[j].pos == q
  }

  /** Slots i.. whose search failed hold the entity they held before. */
  ghost predicate FailedSlotsKept(es: seq<MovingEntity>, r: Spawned, i: nat) {
    forall j :: i <= j < |es| && j < |r.outcomes| && j < |r.entities| && !r.outcomes[j].Found? ==> r.entities[j] == es[j]
  }

  /** Slots i.. whose search succeeded stand on the cell found, which was Air
      in g and holds t in r's grid, and took at most MaxAttempts attempts. */
  ghost predicate FoundSlotsPlaced(g: Grid, r: Spawned, t: Cell, i: nat) {
    forall j :: i <= j < |r.outcomes| && j < |r.entities| && r.outcomes[j].Found? ==>
      && r.entities[j].pos == r.outcomes[j].pos && InGrid(r.entities[j].pos)
      && At(g, r.entities[j].pos) == Air && At(r.grid, r.entities[j].pos) == t
      && r.outcomes[j].attempts <= MaxAttempts
  }

  /** No two of the searches i.. found the same cell. */
  ghost predicate FoundCellsDistinct(outcomes: seq<Search>, i: nat) {
    forall a, b :: i <= a < b < |outcomes| && outcomes[a].Found? && outcomes[b].Found? ==> outcomes[a].pos != outcomes[b].pos
  }

  /** Placement changes only Air cells, each to the family's tag and each
      the cell some slot's search found. */
  lemma {:induction false} PlaceFromFrame(g: Grid, es: seq<MovingEntity>, t: Cell, extra: nat, search: Searcher, facing: nat -> Direction,
                                          k: nat, i: nat, log: seq<Search>)
    requires i <= |es| && |log| == i && Sound(search)
    ensures OnlyFoundCellsChange(g, PlaceFrom(g, es, t, extra, search, facing, k, i, log).grid, t, PlaceFrom(g, es, t, extra, search, facing, k, i, log).outcomes, i)
    decreases |es| - i
  {
    if i < |es| {
      var o := search(g, k);
      if o.Found? {
        var g', es' := Set(g, o.pos, t), es[i := MovingEntity(o.pos, facing(o.next))];
        PlaceFromFrame(g', es', t, extra, search, facing, o.next + 1 + extra, i + 1, log + [o]);
        var r := PlaceFrom(g', es', t, extra, search, facing, o.next + 1 + extra, i + 1, log + [o]);
        assert r.outcomes[i] == o;
      } else {
        PlaceFromFrame(g, es, t, extra, search, facing, k + 2 * MaxAttempts, i + 1, log + [o]);
      }
    }
  }

  /** A slot whose search failed keeps the entity it had. */
  lemma {:induction false} PlaceFromKeeps(g: Grid, es: seq<MovingEntity>, t: Cell, extra: nat, search: Searcher, facing: nat -> Direction,
                                          k: nat, i: nat, log: seq<Search>)
    requires i <= |es| && |log| == i && Sound(search)
    ensures FailedSlotsKept(es, PlaceFrom(g, es, t, extra, search, facing, k, i, log), i)
    decreases |es| - i
  {
    if i < |es| {
      var o := search(g, k);
      if o.Found? {
        var g', es' := Set(g, o.pos, t), es[i := MovingEntity(o.pos, facing(o.next))];
        PlaceFromKeeps(g', es', t, extra, search, facing, o.next + 1 + extra, i + 1, log + [o]);
        var r := PlaceFrom(g', es', t, extra, search, facing, o.next + 1 + extra, i + 1, log + [o]);
        assert r.outcomes[i] == o;
      } else {
        PlaceFromKeeps(g, es, t, extra, search, facing, k + 2 * MaxAttempts, i + 1, log + [o]);
        var r := PlaceFrom(g, es, t, extra, search, facing, k + 2 * MaxAttempts, i + 1, log + [o]);
        assert r.entities[i] == es[i];
      }
    }
  }

  /** A slot whose search succeeded stands on the cell found, which was Air
      before placement and holds tag t after it. */
  lemma {:induction false} PlaceFromPlaces(g: Grid, es: seq<MovingEntity>, t: Cell, extra: nat, search: Searcher, facing: nat -> Direction,
                                          k: nat, i: nat, log: seq<Search>)
    requires i <= |es| && |log| == i && Sound(search) && t != Air
    ensures FoundSlotsPlaced(g, PlaceFrom(g, es, t, extra, search, facing, k, i, log), t, i)
    decreases |es| - i, 1
  {
    if i < |es| {
      if search(g, k).Found? {
        PlacesAfterFound(g, es, t, extra, search, facing, k, i, log);
      } else {
        var o := search(g, k);
        PlaceFromPlaces(g, es, t, extra, search, facing, k + 2 * MaxAttempts, i + 1, log + [o]);
        var r := PlaceFrom(g, es, t, extra, search, facing, k + 2 * MaxAttempts, i + 1, log + [o]);
        assert r.outcomes[i] == o;
      }
    }
  }

  lemma {:induction false} PlacesAfterFound(g: Grid, es: seq<MovingEntity>, t: Cell, extra: nat, search: Searcher, facing: nat -> Direction,
                                          k: nat, i: nat, log: seq<Search>)
    requires i < |es| && |log| == i && Sound(search) && t != Air && search(g, k).Found?
    ensures FoundSlotsPlaced(g, PlaceFrom(g, es, t, extra, search, facing, k, i, log), t, i)
    decreases |es| - i, 0
  {
    var o := search(g, k);
    var g', es' := Set(g, o.pos, t), es[i := MovingEntity(o.pos, facing(o.next))];
    PlaceFromPlaces(g', es', t, extra, search, facing, o.next + 1 + extra, i + 1, log + [o]);
    PlaceFromFrame(g', es', t, extra, search, facing, o.next + 1 + extra, i + 1, log + [o]);
    var r := PlaceFrom(g', es', t, extra, search, facing, o.next + 1 + extra, i + 1, log + [o]);
    assert PlaceFrom(g, es, t, extra, search, facing, k, i, log) == r.(placed := r.placed + 1);
    assert r.outcomes[i] == o && r.entities[i] == es'[i];
    assert At(r.grid, o.pos) == t;
  }

  /** No two slots are given the same cell. */
  lemma {:induction false} PlaceFromDistinct(g: Grid, es: seq<MovingEntity>, t: Cell, extra: nat, search: Searcher, facing: nat -> Direction,
                                          k: nat, i: nat, log: seq<Search>)
    requires i <= |es| && |log| == i && Sound(search) && t != Air
    ensures FoundCellsDistinct(PlaceFrom(g, es, t, extra, search, facing, k, i, log).outcomes, i)
    decreases |es| - i, 1
  {
    if i < |es| {
      if search(g, k).Found? {
        DistinctAfterFound(g, es, t, extra, search, facing, k, i, log);
      } else {
        var o := search(g, k);
        PlaceFromDistinct(g, es, t, extra, search, facing, k + 2 * MaxAttempts, i + 1, log + [o]);
        var r := PlaceFrom(g, es, t, extra, search, facing, k + 2 * MaxAttempts, i + 1, log + [o]);
        assert r.outcomes[i] == o;
      }
    }
  }

  lemma {:induction false} DistinctAfterFound(g: Grid, es: seq<MovingEntity>, t: Cell, extra: nat, search: Searcher, facing: nat -> Direction,
                                          k: nat, i: nat, log: seq<Search>)
    requires i < |es| && |log| == i && Sound(search) && t != Air && search(g, k).Found?
    ensures FoundCellsDistinct(PlaceFrom(g, es, t, extra, search, facing, k, i, log).outcomes, i)
    decreases |es| - i, 0
  {
    var o := search(g, k);
    var g', es' := Set(g, o.pos, t), es[i := MovingEntity(o.pos, facing(o.next))];
    PlaceFromDistinct(g', es', t, extra, search, facing, o.next + 1 + extra, i + 1, log + [o]);
    PlaceFromPlaces(g', es', t, extra, search, facing, o.next + 1 + extra, i + 1, log + [o]);
    var r := PlaceFrom(g', es', t, extra, search, facing, o.next + 1 + extra, i + 1, log + [o]);
    assert PlaceFrom(g, es, t, extra, search, facing, k, i, log).outcomes == r.outcomes;
    assert r.outcomes[i] == o;
    forall j | i < j < |es| && r.outcomes[j].Found?
      ensures r.outcomes[j].pos != o.pos
    {
      assert At(g', r.entities[j].pos) == Air;
    }
  }

  /** When the slots from i on all start out of play, the number of slots
      placed is the number of those slots in play afterwards. */
  lemma {:induction false} PlaceFromCount(g: Grid, es: seq<MovingEntity>, t: Cell, extra: nat, search: Searcher, facing: nat -> Direction,
                                          k: nat, i: nat, log: seq<Search>)
    requires i <= |es| && |log| == i && Sound(search)
    requires forall j :: i <= j < |es| ==> !Active(es[j])
    ensures PlaceFrom(g, es, t, extra, search, facing, k, i, log).placed == CountActive(PlaceFrom(g, es, t, extra, search, facing, k, i, log).entities[i..])
    decreases |es| - i, 1
  {
    if i < |es| {
      if search(g, k).Found? {
        CountAfterFound(g, es, t, extra, search, facing, k, i, log);
      } else {
        CountAfterExhausted(g, es, t, extra, search, facing, k, i, log);
      }
    }
  }

  lemma {:induction false} CountAfterFound(g: Grid, es: seq<MovingEntity>, t: Cell, extra: nat, search: Searcher, facing: nat -> Direction,
                                          k: nat, i: nat, log: seq<Search>)
    requires i < |es| && |log| == i && Sound(search) && search(g, k).Found?
    requires forall j :: i <= j < |es| ==> !Active(es[j])
    ensures PlaceFrom(g, es, t, extra, search, facing, k, i, log).placed == CountActive(PlaceFrom(g, es, t, extra, search, facing, k, i, log).entities[i..])
    decreases |es| - i, 0
  {
    var o := search(g, k);
    var g', es' := Set(g, o.pos, t), es[i := MovingEntity(o.pos, facing(o.next))];
    var r := PlaceFrom(g', es', t, extra, search, facing, o.next + 1 + extra, i + 1, log + [o]);
    PlaceFromCount(g', es', t, extra, search, facing, o.next + 1 + extra, i + 1, log + [o]);
    assert PlaceFrom(g, es, t, extra, search, facing, k, i, log) == r.(placed := r.placed + 1);
    assert r.entities[i..][1..] == r.entities[i + 1..];
    assert Active(r.entities[i]) by {
      assert r.entities[i] == es'[i];
    }
  }

  lemma {:induction false} CountAfterExhausted(g: Grid, es: seq<MovingEntity>, t: Cell, extra: nat, search: Searcher, facing: nat -> Direction,
                                          k: nat, i: nat, log: seq<Search>)
    requires i < |es| && |log| == i && Sound(search) && !search(g, k).Found?
    requires forall j :: i <= j < |es| ==> !Active(es[j])
    ensures PlaceFrom(g, es, t, extra, search, facing, k, i, log).placed == CountActive(PlaceFrom(g, es, t, extra, search, facing, k, i, log).entities[i..])
    decreases |es| - i, 0
  {
    var o := search(g, k);
    var r := PlaceFrom(g, es, t, extra, search, facing, k + 2 * MaxAttempts, i + 1, log + [o]);
    PlaceFromCount(g, es, t, extra, search, facing, k + 2 * MaxAttempts, i + 1, log + [o]);
    assert PlaceFrom(g, es, t, extra, search, facing, k, i, log) == r;
    assert r.entities[i..][1..] == r.entities[i + 1..];
    assert r.entities[i] == es[i];
  }

  /** Placing a family whose slots all start out of play, on a grid holding
      no cell of its tag, leaves grid and family in one-to-one
      correspondence: every slot in play stands on its own t cell and every
      t cell holds one of them. */
  lemma PlaceTagged(g: Grid, es: seq<MovingEntity>, t: Cell, extra: nat, search: Searcher, facing: nat -> Direction, k: nat)
    requires Sound(search) && t != Air
    requires forall j :: 0 <= j < |es| ==> !Active(es[j])
    requires forall q :: InGrid(q) ==> At(g, q) != t
    ensures Tagged(PlaceFrom(g, es, t, extra, search, facing, k, 0, []).grid, PlaceFrom(g, es, t, extra, search, facing, k, 0, []).entities, t)
  {
    PlaceFromFrame(g, es, t, extra, search, facing, k, 0, []);
    PlaceFromKeeps(g, es, t, extra, search, facing, k, 0, []);
    PlaceFromPlaces(g, es, t, extra, search, facing, k, 0, []);
    PlaceFromDistinct(g, es, t, extra, search, facing, k, 0, []);
    SpawnedTagged(g, es, t, PlaceFrom(g, es, t, extra, search, facing, k, 0, []));
  }

  /** The four facts about a placement run that make it a one-to-one
      correspondence. */
  lemma SpawnedTagged(g: Grid, es: seq<MovingEntity>, t: Cell, r: Spawned)
    requires |r.entities| == |es| && |r.outcomes| == |es|
    requires forall j :: 0 <= j < |es| ==> !Active(es[j])
    requires forall q :: InGrid(q) ==> At(g, q) != t
    requires OnlyFoundCellsChange(g, r.grid, t, r.outcomes, 0) && FailedSlotsKept(es, r, 0)
    requires FoundSlotsPlaced(g, r, t, 0) && FoundCellsDistinct(r.outcomes, 0)
    ensures Tagged(r.grid, r.entities, t)
  {
    assert forall j :: 0 <= j < |es| && Active(r.entities[j]) ==> r.outcomes[j].Found?;
    forall a, b | 0 <= a < |es| && 0 <= b < |es| && a != b && Active(r.entities[a])
      ensures r.entities[a].pos != r.entities[b].pos
    {
      if !r.outcomes[b].Found? {
        assert r.entities[b] == es[b];
      } else if a < b {
        assert r.outcomes[a].pos != r.outcomes[b].pos;
      } else {
        assert r.outcomes[b].pos != r.outcomes[a].pos;
      }
    }
    forall q | InGrid(q) && At(r.grid, q) == t
      ensures exists j :: 0 <= j < |r.entities| && r.entities[j].pos == q
    {
      assert At(r.grid, q) != At(g, q);
      var j :| 0 <= j < |r.outcomes| && r.outcomes[j].Found? && r.outcomes[j].pos == q;
      assert r.entities[j].pos == q;
    }
  }
}
